=== FILE: README.md ===
# Macro engine of the JSON/template configuration tool

The tool reads a text of Verilog-style `` `define NAME body `` lines into a
flat macro table. It then expands `` `NAME `` references inside the four
string fields of each configuration record. This project models that engine
and proves its properties:

- **Text** (`text.dfy`): the character classes behind `\s` and `\w`, and the
  maximal-run scanners that the regular expressions imply.
- **Cleanup** (`cleanup.dfy`): the cleanup applied to each captured body.
  Line comments are cut, every whitespace run is collapsed to one space, and
  both ends are stripped. Together these give the `IsNormalized` shape of
  every stored body.
- **MacroTable** (`macro_table.dfy`): `extract_macros`.
  - `MatchAt` is one attempt of the definition pattern at a position, written
    as a scanner.
  - `HeaderAt`/`BodyAfter` state the same pattern declaratively, and two
    lemmas prove that the two agree in both directions.
  - `Scan` is `findall`.
  - `Insert` is the dictionary loop, where the last definition of a name wins.
- **MacroTableExamples** (`table_examples.dfy`): concrete definition texts
  and the tables they produce.
- **Expansion** (`expansion.dfy`): `expand_value`.
  - A round collects every reference, left to right with duplicates kept.
  - It then substitutes each defined name, respecting word boundaries.
  - Rounds repeat until no reference is left, or until the depth ceiling of
    1000 is reached. Hitting the ceiling is returned as a flag.
  - `Rounds`/`RoundsUntilClean` give an independent bounded-iteration
    definition. The recursive function is proved equal to it.
- **ExpansionExamples** (`expansion_examples.dfy`): word boundaries, nested
  and self-referencing definitions, and unresolved names.
- **PipelineExamples** (`pipeline_examples.dfy`): a table read from
  definition text, then used to expand a value.
- **Attributes** (`attributes.dfy`): `ConfigItem` and
  `expand_object_attributes`.

How far a definition reaches follows from the two flags the pattern is
compiled with (main.py:24-26). `re.DOTALL` lets `.` cross line ends.
However, under `re.MULTILINE` the lookahead `$` holds before every newline,
so the lazy body stops at the first line end it reaches. A captured body
never contains a newline (`MacroTable.BodyStopsAtLineEnd`,
`MacroTable.ScannedBodiesAreSingleLines`). The greedy `\s+` after the name
does cross line breaks, so a body may start on a later line. For
`` `define A `` followed by the lines `  x` and `  y`, `A` is stored as `x`,
and the line `  y` belongs to no definition
(`MacroTableExamples.OnlyFirstBodyLineIsKept`).

## Model

| member | source | states |
|---|---|---|
| Cleanup.StripComments | main.py:30 | the result contains no `//`; comment-free text is returned unchanged; the result is never longer than the input |
| Cleanup.StripCommentsKeepsCommentFreePrefix | main.py:30 | comment-free text that does not end in `/` is kept verbatim in front of whatever follows, and only the rest is rewritten |
| Cleanup.StripCommentsKeepsPlainPrefix | main.py:30 | text before the first `/` is kept verbatim, and only the rest is rewritten |
| Cleanup.StripCommentsDropsComment | main.py:30 | a comment disappears up to, but not including, the line break that ends it |
| Cleanup.StripCommentsCutsComment | main.py:30 | plain text, a comment, then comment-free text from a line break on: only the comment is removed |
| Cleanup.Collapse | main.py:31 | the result is single-spaced (only plain spaces, never two in a row); it is empty exactly when the input is; comment-free input stays comment-free; single-spaced text is unchanged |
| Cleanup.CollapseKeepsPlainPrefix | main.py:31 | text without whitespace is kept verbatim in front of the collapsed rest |
| Cleanup.CollapseRun | main.py:31 | a whole whitespace run of any kind (tabs, newlines) becomes exactly one space, and the text after it is collapsed on its own |
| Cleanup.CollapseJoinsWords | main.py:31 | two words separated by any whitespace run come out separated by one space |
| Cleanup.Trim | main.py:31 | the result is the input with whitespace removed only at its two ends (the middle is kept as it is); it has no whitespace at either end; text that is already trimmed is unchanged; all-whitespace text becomes empty; being single-spaced and comment-free are preserved |
| Cleanup.Normalize | main.py:30-31 | every cleaned body has the stored shape (no comment, no newline, trimmed, single-spaced); cleaning a body of that shape changes nothing, so cleaning is idempotent |
| MacroTable.BodyEnd | main.py:25-26 | the lazy body stops at the first index, at or after its start, where the lookahead holds (end of text, a line end, or optional whitespace before `` `define ``) |
| MacroTable.MatchAt | main.py:25-26 | a match starts at a `` `define `` marker, ends inside the text and after its start, and captures a nonempty word name |
| MacroTable.HeaderIsScanned | main.py:25 | whenever the header of the pattern matches, its name bounds are the ones the maximal whitespace and word runs give |
| MacroTable.MatchAtIsPatternMatch | main.py:25-26 | the scanner finds a match exactly when the pattern's header matches; for that header, the captured body and end are the ones the declarative pattern allows |
| MacroTable.PatternMatchIsMatchAt | main.py:25-26 | conversely, every match of the declarative pattern at a position is the one the scanner returns |
| MacroTable.DefinitionLineMatches | main.py:25-26 | a written-out `` `define NAME body `` line is captured as exactly that name and body when the body has no line break and no whitespace at its ends, no `` `define `` marker starts inside the body, and a stop point follows it; the body may hold references |
| MacroTable.BodyStopsAtLineEnd | main.py:25-26 | a captured body never contains a newline |
| MacroTable.Scan | main.py:29 | every pair found has a word name; text without a marker yields nothing |
| MacroTable.ScanFindsFirstMatch | main.py:29 | the search takes the first matching position, and resumes at the end of that match |
| MacroTable.ScanIsEmptyWithoutMatch | main.py:29 | the search finds nothing exactly when the pattern matches nowhere |
| MacroTable.ScannedBodiesAreSingleLines | main.py:25-29 | no found pair has a body with a newline |
| MacroTable.Insert | main.py:28-32 | the table's names are the earlier names plus every name defined |
| MacroTable.InsertKeepsNormalized | main.py:29-32 | every stored body has the cleaned shape |
| MacroTable.InsertKeepsUndefined | main.py:29-32 | an entry whose name is not redefined is kept as it was |
| MacroTable.InsertLastWins | main.py:29-32 | a name's entry is the cleaned body of its last definition |
| MacroTable.ExtractMacros | main.py:22-33 | every key is a word name whose body has the cleaned shape; text without any marker gives the empty table |
| MacroTable.LastDefinitionWins | main.py:22-33 | the table has exactly the names found in the text, each mapped to the cleaned body of its last definition |
| MacroTableExamples.TwoOnOneLine | main.py:25-33 | two definitions on one line are both captured, because the body stops before whitespace and the next `` `define `` |
| MacroTableExamples.RedefinitionWins | main.py:29-33 | defining `FOO` twice keeps only the second body |
| MacroTableExamples.NameWithoutBody | main.py:25-33 | a marker and a name with no whitespace after it define nothing |
| MacroTableExamples.EmptyBodyIsKept | main.py:25-33 | a name followed by whitespace and then the next marker is stored with an empty body |
| MacroTableExamples.ReferenceInBodyIsKept | main.py:25-33 | `` `define A `B `` then `` `define B end `` on the next line gives `A` = `` `B `` and `B` = `end`: references in a body are stored as written |
| MacroTableExamples.OnlyFirstBodyLineIsKept | main.py:25-33 | `` `define A `` followed by the lines `  x` and `  y` gives `A` = `x`: the body starts on the line after the name and stops at that line's end |
| MacroTableExamples.CommentAndLineBreakAreCleaned | main.py:30-31 | `foo // comment` then a line break and `bar` cleans to `foo bar` |
| Expansion.RefsFrom | main.py:43 | every collected name is a nonempty word; nothing is collected exactly when no backtick is followed by a word character |
| Expansion.RefsFromFirst | main.py:43 | the collection starts with the name of the first reference at or after the start position, then resumes right after that name |
| Expansion.RefsFromComplete | main.py:43 | the name of every reference at or after the start position is collected |
| Expansion.RefsFromCount | main.py:43 | as many names are collected as there are positions where a reference starts, so a name referenced twice is collected twice |
| Expansion.Refs | main.py:43-45 | the list of references is empty exactly when the value holds no reference |
| Expansion.RefsCollectEveryReference | main.py:43 | no reference in the value is missed or merged: each one's name is in the list, and the list has one entry per reference |
| Expansion.CollectedNamesOccur | main.py:43 | every collected name occurs as a whole-word reference in the string the round starts from |
| Expansion.Substitute | main.py:51 | every character of the result comes from the string or from the body; a string without a backtick is unchanged |
| Expansion.SubstituteWithoutRef | main.py:51 | a string with no whole-word reference to the name is unchanged |
| Expansion.SubstituteSelf | main.py:51 | replacing a reference by itself changes nothing |
| Expansion.SubstituteLeadingRef | main.py:51 | a reference followed by a non-word character is replaced by the body, and the rest is rewritten on its own |
| Expansion.SubstituteConcat | main.py:51 | substitution distributes over a concatenation whose second part does not start with a word character |
| Expansion.SubstituteSplit | main.py:51 | text, a reference, then text: both sides are rewritten on their own, and the body goes in between |
| Expansion.SubstitutePlainPrefix | main.py:51 | text without a backtick is kept verbatim |
| Expansion.Round | main.py:47-51 | a round in which no listed name is defined leaves the string unchanged |
| Expansion.RoundKeepsCharacters | main.py:47-51 | a round invents no characters: each comes from the string or from a body in the table |
| Expansion.RoundConcat | main.py:48-51 | a round over two lists of names one after the other is a round over the first list, then a round over the second on its result |
| Expansion.Step | main.py:43-51 | a round on a value without references leaves it unchanged |
| Expansion.ExpandValue | main.py:36-53 | at or past the ceiling the value comes back unchanged with the warning flag; a value without references comes back unchanged without it; a result without the flag holds no reference |
| Expansion.RoundsUntilClean | main.py:39-45 | the count of rounds never exceeds the budget; every earlier iterate still holds a reference; the iterate reached before the budget runs out holds none |
| Expansion.ExpandValueIsBoundedIteration | main.py:36-53 | expansion equals the independent iteration of rounds, stopped at the first reference-free string or after the remaining budget; the flag is set exactly when the whole budget was spent |
| Expansion.StuckValueRunsToCeiling | main.py:39-53 | a value that still has references but that a round leaves unchanged runs to the ceiling and comes back unchanged with the flag set |
| Expansion.UndefinedNamesAreKept | main.py:47-53 | a value whose names are all undefined comes back unchanged, with the flag set exactly when it holds a reference |
| Expansion.EmptyTableChangesNothing | main.py:47-53 | with an empty table every value is returned unchanged |
| Expansion.ExpandedValueIsStable | main.py:43-45 | expanding a completely expanded value again changes nothing and does not raise the flag |
| ExpansionExamples.NestedDefinitionsExpand | main.py:36-53 | `` `A `` with `A` = `` `B `` and `B` = `end` expands to `end` in two rounds |
| ExpansionExamples.SelfReferenceHitsCeiling | main.py:39-53 | `A` defined as `` `A `` hits the ceiling and comes back unchanged |
| ExpansionExamples.PrefixOfLongerNameIsNotReplaced | main.py:51 | `` `FOO `` inside `` `FOOBAR `` is not a reference to `FOO` |
| ExpansionExamples.WholeNameIsReplaced | main.py:51 | a whole reference to `FOO` is replaced |
| ExpansionExamples.WholeNameExpands | main.py:36-53 | with `FOO` = `X`, `` `FOO `` expands to `X` without the flag |
| ExpansionExamples.LongerNameIsLeftAlone | main.py:43-53 | with only `FOO` defined, `` `FOOBAR `` is kept and runs to the ceiling |
| ExpansionExamples.EarlierSubstitutionHidesReference | main.py:43-51 | with `A` = `x` and `B` = `y`, one round turns `` `A `B`A `` into `x `Bx`: the first substitution glues `x` to `` `B ``, so the `B` step of the same round finds no reference and `B` is not expanded |
| ExpansionExamples.HiddenReferenceRunsToCeiling | main.py:36-53 | the same value expands to `x `Bx` with the flag set: what is left names only the undefined `Bx` |
| ExpansionExamples.UnresolvedReferencePassesThrough | main.py:47-53 | an undefined reference passes through unchanged |
| ExpansionExamples.EmptyValue | main.py:43-45 | the empty string expands to itself without the flag |
| PipelineExamples.NestedTextExpands | main.py:22-53 | with the table read from `` `define A `B `` and `` `define B end ``, `` `A `` expands to `end` without the flag |
| Attributes.ExpandObjectAttributes | main.py:56-62 | each of the four fields becomes the bounded iteration of rounds from depth 0 on its own previous value; empty fields stay empty |
| Attributes.FieldsAreIndependent | main.py:56-62 | a field of the result depends only on the same field of the input and on the table |
| Attributes.ExpandedFieldsAreClean | main.py:56-62 | a field whose expansion did not reach the ceiling holds no reference |
| Attributes.BlankStaysBlank | main.py:15-19 | a record left at its defaults (four empty strings) expands to itself |

## Left out

- `json_to_objects`, `render_template` and `main`: file and JSON reading, Jinja2 rendering and the command line are I/O around the engine. Records arrive as `ConfigItem` values and the table as a map.
- The warning printed at the ceiling, with its `value[:50]` excerpt, is not modelled as output. `ExpandValue` returns a flag that is true exactly where the print happens.
- CPython's recursion limit (1000 frames by default) is not modelled. `expand_value` recurses once per round, so under the default limit a value that keeps its references, such as a self-referencing macro, may raise `RecursionError` before the ceiling of 1000 is reached. The model treats the ceiling as always reachable.
- Escape processing in `re.sub` replacement strings (`\1`, `\g<name>`, `\n` in a macro body) is not modelled. Bodies are inserted literally.
- `\s`, `\w`, `\b` and `str.strip()` are modelled on a fixed character set. `\s` is space, tab, newline, carriage return, form feed and vertical tab. `\w` is ASCII letters, digits and `_`. Python's classes are broader. Its `\s` and `str.strip()` also treat the ASCII separators \x1c, \x1d, \x1e and \x1f as whitespace, along with Unicode spaces such as \x85 and \xa0. Its `\w` also includes non-ASCII letters and digits.
- `expand_object_attributes` updates the record in place and returns it. Here it returns a new record, and the table is an input that nothing changes.

=== FILE: attributes.dfy ===
/** The record layer: `ConfigItem` (main.py:13-19) and
    `expand_object_attributes` (main.py:56-62). */
module Attributes {
  import opened Expansion

  /** One record with its four string fields. */
  datatype ConfigItem = ConfigItem(enable: string, source: string, destination: string, name: string)

  /** A record built with every field left at its default. */
  const Blank := ConfigItem("", "", "", "")

  /** `expand_object_attributes`: each field is expanded from depth 0 with
      the same table, that is, rewritten round by round until it holds no
      reference or the ceiling's budget of rounds is spent. The source
      updates the record in place and returns it; here the updated record
      is the result. */
  function ExpandObjectAttributes(obj: ConfigItem, macros: map<string, string>): (r: ConfigItem)
    ensures r.enable == Rounds(obj.enable, macros, RoundsUntilClean(obj.enable, macros, MaxDepth))
    ensures r.source == Rounds(obj.source, macros, RoundsUntilClean(obj.source, macros, MaxDepth))
    ensures r.destination == Rounds(obj.destination, macros, RoundsUntilClean(obj.destination, macros, MaxDepth))
    ensures r.name == Rounds(obj.name, macros, RoundsUntilClean(obj.name, macros, MaxDepth))
    ensures obj.enable == "" ==> r.enable == ""
    ensures obj.source == "" ==> r.source == ""
    ensures obj.destination == "" ==> r.destination == ""
    ensures obj.name == "" ==> r.name == ""
  {
    ExpandValueIsBoundedIteration(obj.enable, macros, 0);
    ExpandValueIsBoundedIteration(obj.source, macros, 0);
    ExpandValueIsBoundedIteration(obj.destination, macros, 0);
    ExpandValueIsBoundedIteration(obj.name, macros, 0);
    var enable := ExpandValue(obj.enable, macros, 0).0;
    var source := ExpandValue(obj.source, macros, 0).0;
    var destination := ExpandValue(obj.destination, macros, 0).0;
    var name := ExpandValue(obj.name, macros, 0).0;
    obj.(enable := enable, source := source, destination := destination, name := name)
  }

  /** Fields do not influence one another: a field of the result depends
      only on the same field of the input (and the table). */
  lemma FieldsAreIndependent(a: ConfigItem, b: ConfigItem, macros: map<string, string>)
    ensures a.enable == b.enable ==>
              ExpandObjectAttributes(a, macros).enable == ExpandObjectAttributes(b, macros).enable
    ensures a.source == b.source ==>
              ExpandObjectAttributes(a, macros).source == ExpandObjectAttributes(b, macros).source
    ensures a.destination == b.destination ==>
              ExpandObjectAttributes(a, macros).destination == ExpandObjectAttributes(b, macros).destination
    ensures a.name == b.name ==>
              ExpandObjectAttributes(a, macros).name == ExpandObjectAttributes(b, macros).name
  {
  }

  /** A field whose expansion did not reach the ceiling holds no reference. */
  lemma ExpandedFieldsAreClean(obj: ConfigItem, macros: map<string, string>)
    ensures !ExpandValue(obj.enable, macros, 0).1 ==> !HasRef(ExpandObjectAttributes(obj, macros).enable)
    ensures !ExpandValue(obj.source, macros, 0).1 ==> !HasRef(ExpandObjectAttributes(obj, macros).source)
    ensures !ExpandValue(obj.destination, macros, 0).1 ==> !HasRef(ExpandObjectAttributes(obj, macros).destination)
    ensures !ExpandValue(obj.name, macros, 0).1 ==> !HasRef(ExpandObjectAttributes(obj, macros).name)
  {
  }

  /** The blank record expands to itself under any table. */
  lemma BlankStaysBlank(macros: map<string, string>)
    ensures ExpandObjectAttributes(Blank, macros) == Blank
  {
  }
}

=== FILE: cleanup.dfy ===
/** The cleanup applied to every captured definition body, in order:
    cut line comments (`//` up to the end of the line), collapse every
    whitespace run to one space, trim both ends. */
module Cleanup {
  import opened Text

  /** A `//` comment starts at index `i`. */
  predicate CommentAt(s: string, i: nat) {
    i + 1 < |s| && s[i] == '/' && s[i + 1] == '/'
  }

  predicate NoComment(s: string) {
    forall i :: 0 <= i < |s| ==> !CommentAt(s, i)
  }

  /** Every whitespace character is a plain space and no two are adjacent. */
  predicate SingleSpaced(s: string) {
    && (forall i :: 0 <= i < |s| && IsSpace(s[i]) ==> s[i] == ' ')
    && (forall i :: 0 <= i && i + 1 < |s| ==> !(IsSpace(s[i]) && IsSpace(s[i + 1])))
  }

  /** No whitespace at either end. */
  predicate Trimmed(s: string) {
    |s| == 0 || (!IsSpace(s[0]) && !IsSpace(s[|s| - 1]))
  }

  /** The shape of every body stored in a macro table. */
  predicate IsNormalized(s: string) {
    && NoComment(s)
    && '\n' !in s
    && Trimmed(s)
    && SingleSpaced(s)
  }

  /** Where `.*` (without DOTALL) stops: the first newline at or after `i`, or the end. */
  function LineEnd(s: string, i: nat): (j: nat)
    requires i <= |s|
    ensures i <= j <= |s|
    ensures forall k :: i <= k < j ==> s[k] != '\n'
    ensures j == |s| || s[j] == '\n'
    decreases |s| - i
  {
    if i < |s| && s[i] != '\n' then LineEnd(s, i + 1) else i
  }

  /** `re.sub(r"//.*", "", s)`: every comment is removed up to, not including, its line end. */
  function StripComments(s: string): (r: string)
    ensures NoComment(r)
    ensures NoComment(s) ==> r == s
    ensures |r| > 0 && CommentAt(s, 0) ==> r[0] == '\n'
    ensures |r| > 0 && !CommentAt(s, 0) ==> r[0] == s[0]
    ensures |r| <= |s|
    decreases |s|
  {
    if |s| == 0 then ""
    else if CommentAt(s, 0) then StripComments(s[LineEnd(s, 2)..])
    else
      var rest := StripComments(s[1..]);
      assert forall i :: 0 <= i < |s| - 1 ==> (CommentAt(s[1..], i) <==> CommentAt(s, i + 1));
      assert forall i :: 1 <= i < |rest| + 1 ==> (CommentAt([s[0]] + rest, i) <==> CommentAt(rest, i - 1));
      [s[0]] + rest
  }

  /** A suffix of comment-free text is comment-free. */
  lemma NoCommentSuffix(s: string, j: nat)
    requires NoComment(s) && j <= |s|
    ensures NoComment(s[j..])
  {
    forall i | 0 <= i < |s| - j ensures !CommentAt(s[j..], i) {
      assert !CommentAt(s, i + j);
    }
  }

  /** Prepending a character creates no comment unless it is a `/` before a `/`. */
  lemma NoCommentCons(c: char, r: string)
    requires NoComment(r)
    requires c == '/' ==> |r| == 0 || r[0] != '/'
    ensures NoComment([c] + r)
  {
    forall i | 1 <= i < |r| + 1 ensures !CommentAt([c] + r, i) {
      assert !CommentAt(r, i - 1);
    }
  }

  /** A suffix of single-spaced text is single-spaced. */
  lemma SingleSpacedTail(s: string)
    requires |s| > 0 && SingleSpaced(s)
    ensures SingleSpaced(s[1..])
  {
    assert forall i :: 0 <= i < |s| - 1 ==> s[1..][i] == s[i + 1];
  }

  /** Prepending a character keeps text single-spaced unless it is a
      whitespace character other than a space, or a second whitespace. */
  lemma SingleSpacedCons(c: char, r: string)
    requires SingleSpaced(r)
    requires IsSpace(c) ==> c == ' ' && (|r| == 0 || !IsSpace(r[0]))
    ensures SingleSpaced([c] + r)
  {
    assert forall i :: 1 <= i < |r| + 1 ==> ([c] + r)[i] == r[i - 1];
  }

  /** `re.sub(r"\s+", " ", s)`: every maximal whitespace run becomes one space. */
  function Collapse(s: string): (r: string)
    ensures SingleSpaced(r)
    ensures NoComment(s) ==> NoComment(r)
    ensures SingleSpaced(s) ==> r == s
    ensures |r| > 0 <==> |s| > 0
    ensures |s| > 0 && IsSpace(s[0]) ==> r[0] == ' '
    ensures |s| > 0 && !IsSpace(s[0]) ==> r[0] == s[0]
    decreases |s|
  {
    if |s| == 0 then ""
    else if IsSpace(s[0]) then
      var j := SkipSpaces(s, 0);
      var rest := Collapse(s[j..]);
      assert j < |s| ==> s[j..][0] == s[j];
      SingleSpacedCons(' ', rest);
      assert NoComment(s) ==> NoComment([' '] + rest) by {
        if NoComment(s) {
          NoCommentSuffix(s, j);
          NoCommentCons(' ', rest);
        }
      }
      assert SingleSpaced(s) ==> [' '] + rest == s by {
        if SingleSpaced(s) {
          assert |s| == 1 || !IsSpace(s[1]);
          assert j == SkipSpaces(s, 1) == 1;
          SingleSpacedTail(s);
          assert s == [s[0]] + s[1..];
        }
      }
      [' '] + rest
    else
      var rest := Collapse(s[1..]);
      SingleSpacedCons(s[0], rest);
      assert NoComment(s) ==> NoComment([s[0]] + rest) by {
        if NoComment(s) {
          NoCommentSuffix(s, 1);
          assert !CommentAt(s, 0);
          assert |rest| > 0 ==> rest[0] == ' ' || rest[0] == s[1];
          NoCommentCons(s[0], rest);
        }
      }
      assert SingleSpaced(s) ==> [s[0]] + rest == s by {
        if SingleSpaced(s) {
          SingleSpacedTail(s);
          assert s == [s[0]] + s[1..];
        }
      }
      [s[0]] + rest
  }

  /** Comment-free text that does not end in `/` passes through comment
      stripping verbatim, whatever follows it: no `//` can start inside it
      or straddle its end. */
  lemma {:induction false} StripCommentsKeepsCommentFreePrefix(a: string, b: string)
    requires NoComment(a) && (a == [] || a[|a| - 1] != '/')
    ensures StripComments(a + b) == a + StripComments(b)
    decreases |a|
  {
    if a != [] {
      assert StripComments(a + b) == [a[0]] + StripComments(a[1..] + b) by {
        assert (a + b)[1..] == a[1..] + b;
        assert !CommentAt(a + b, 0) by {
          if |a| > 1 {
            assert !CommentAt(a, 0);
          }
        }
      }
      NoCommentSuffix(a, 1);
      assert a[1..] == [] || a[1..][|a[1..]| - 1] == a[|a| - 1];
      StripCommentsKeepsCommentFreePrefix(a[1..], b);
      assert a == [a[0]] + a[1..];
      Regroup(StripComments(a + b), StripComments(a[1..] + b), a, [a[0]], a[1..], StripComments(b));
    } else {
      assert a + b == b;
      assert a + StripComments(b) == StripComments(b);
    }
  }

  /** Text before the first `/` passes through comment stripping verbatim. */
  lemma StripCommentsKeepsPlainPrefix(a: string, b: string)
    requires '/' !in a
    ensures StripComments(a + b) == a + StripComments(b)
  {
    assert NoComment(a) by {
      forall i | 0 <= i < |a| ensures !CommentAt(a, i) {
        assert a[i] in a;
      }
    }
    assert a != [] ==> a[|a| - 1] in a;
    StripCommentsKeepsCommentFreePrefix(a, b);
  }

  /** A comment is removed up to, and not including, the end of its line. */
  lemma StripCommentsDropsComment(c: string, b: string)
    requires CommentAt(c, 0) && '\n' !in c
    requires b == [] || b[0] == '\n'
    ensures StripComments(c + b) == StripComments(b)
  {
    var s := c + b;
    forall k | 2 <= k < |c| ensures s[k] != '\n' {
      assert s[k] == c[k];
      assert c[k] in c;
    }
    assert b != [] ==> s[|c|] == '\n';
    assert LineEnd(s, 2) == |c|;
    assert s[|c|..] == b;
  }

  /** A comment between plain text and a line break disappears and leaves
      the text on both sides of it as it was. */
  lemma StripCommentsCutsComment(a: string, c: string, t: string)
    requires '/' !in a
    requires CommentAt(c, 0) && '\n' !in c
    requires (t == [] || t[0] == '\n') && NoComment(t)
    ensures StripComments(a + c + t) == a + t
  {
    Associative(a, c, t);
    StripCommentsKeepsPlainPrefix(a, c + t);
    StripCommentsDropsComment(c, t);
  }

  /** Text without whitespace passes through whitespace collapsing verbatim. */
  lemma {:induction false} CollapseKeepsPlainPrefix(a: string, b: string)
    requires forall i :: 0 <= i < |a| ==> !IsSpace(a[i])
    ensures Collapse(a + b) == a + Collapse(b)
    decreases |a|
  {
    if a != [] {
      assert Collapse(a + b) == [a[0]] + Collapse(a[1..] + b) by {
        assert (a + b)[1..] == a[1..] + b;
        assert !IsSpace((a + b)[0]);
      }
      assert forall i :: 0 <= i < |a[1..]| ==> !IsSpace(a[1..][i]) by {
        assert forall i :: 0 <= i < |a[1..]| ==> a[1..][i] == a[i + 1];
      }
      CollapseKeepsPlainPrefix(a[1..], b);
      assert a == [a[0]] + a[1..];
      Regroup(Collapse(a + b), Collapse(a[1..] + b), a, [a[0]], a[1..], Collapse(b));
    } else {
      assert a + b == b;
      assert a + Collapse(b) == Collapse(b);
    }
  }

  /** A whitespace run of any kind, followed by the end of the text or by a
      character that is not whitespace, becomes one space; the rest is
      collapsed on its own. */
  lemma CollapseRun(w: string, b: string)
    requires |w| > 0 && forall i :: 0 <= i < |w| ==> IsSpace(w[i])
    requires b == [] || !IsSpace(b[0])
    ensures Collapse(w + b) == " " + Collapse(b)
  {
    var t := w + b;
    SkipSpacesOverRun(t, 0, |w|);
    assert t[|w|..] == b;
  }

  /** Two words separated by one whitespace run of any kind become two
      words separated by a single space. */
  lemma CollapseJoinsWords(a: string, w: string, b: string)
    requires forall i :: 0 <= i < |a| ==> !IsSpace(a[i])
    requires |w| > 0 && forall i :: 0 <= i < |w| ==> IsSpace(w[i])
    requires forall i :: 0 <= i < |b| ==> !IsSpace(b[i])
    ensures Collapse(a + w + b) == a + " " + b
  {
    var t := w + b;
    CollapseRun(w, b);
    assert SingleSpaced(b);
    CollapseKeepsPlainPrefix(a, t);
    Associative(a, w, b);
    Regroup(Collapse(a + t), Collapse(t), a + " ", a, " ", b);
  }

  /** The start of the last whitespace run of `s[lo..hi]`. */
  function TrimEnd(s: string, lo: nat, hi: nat): (j: nat)
    requires lo <= hi <= |s|
    ensures lo <= j <= hi
    ensures forall k :: j <= k < hi ==> IsSpace(s[k])
    ensures j == lo || !IsSpace(s[j - 1])
    decreases hi
  {
    if lo < hi && IsSpace(s[hi - 1]) then TrimEnd(s, lo, hi - 1) else hi
  }

  /** `r` is `s` with whitespace removed only at its ends: the `a` characters
      before `r` and everything after it are whitespace. */
  predicate StripsTo(s: string, a: nat, r: string) {
    && a + |r| <= |s| && r == s[a..a + |r|]
    && (forall k :: 0 <= k < a ==> IsSpace(s[k]))
    && (forall k :: a + |r| <= k < |s| ==> IsSpace(s[k]))
  }

  /** The facts behind `Trim`, for the slice between the first and the last
      character that is not whitespace. */
  lemma TrimSlice(s: string, a: nat, b: nat)
    requires a == SkipSpaces(s, 0) && b == TrimEnd(s, a, |s|)
    ensures Trimmed(s[a..b])
    ensures Trimmed(s) ==> s[a..b] == s
    ensures (forall k :: 0 <= k < |s| ==> IsSpace(s[k])) ==> s[a..b] == ""
    ensures SingleSpaced(s) ==> SingleSpaced(s[a..b])
    ensures NoComment(s) ==> NoComment(s[a..b])
    ensures StripsTo(s, a, s[a..b])
  {
    assert StripsTo(s, a, s[a..b]) by {
      assert a + |s[a..b]| == b;
    }
    assert forall i :: 0 <= i < b - a ==> s[a..b][i] == s[a + i];
    assert NoComment(s) ==> NoComment(s[a..b]) by {
      if NoComment(s) {
        forall i | 0 <= i < b - a ensures !CommentAt(s[a..b], i) {
          assert !CommentAt(s, a + i);
        }
      }
    }
  }

  /** `str.strip()`: drop the whitespace at both ends. */
  function Trim(s: string): (r: string)
    ensures Trimmed(r)
    ensures Trimmed(s) ==> r == s
    ensures (forall k :: 0 <= k < |s| ==> IsSpace(s[k])) ==> r == ""
    ensures SingleSpaced(s) ==> SingleSpaced(r)
    ensures NoComment(s) ==> NoComment(r)
    ensures exists a: nat :: StripsTo(s, a, r)
  {
    var a := SkipSpaces(s, 0);
    var b := TrimEnd(s, a, |s|);
    TrimSlice(s, a, b);
    s[a..b]
  }

  /** The cleanup of one captured body. */
  function Normalize(body: string): (r: string)
    ensures IsNormalized(r)
    ensures IsNormalized(body) ==> r == body
  {
    Trim(Collapse(StripComments(body)))
  }
}

=== FILE: expansion.dfy ===
/** Round-based macro expansion (`expand_value`, main.py:36-53).

    One round collects every `` `name `` reference of the current string
    (left to right, duplicates kept), then, for each collected name that the
    table defines, replaces every boundary-respecting reference to it in the
    string as it stands at that point. Rounds repeat until a string holds no
    reference or the depth ceiling is reached. The warning printed at the
    ceiling is returned as a flag. */
module Expansion {
  import opened Text

  /** The depth ceiling of main.py:38. */
  const MaxDepth: nat := 1000

  /** A backtick followed by a word character starts at `i`: what `` `(\w+) `` finds. */
  predicate SigilAt(s: string, i: nat) {
    i + 1 < |s| && s[i] == '`' && IsWord(s[i + 1])
  }

  /** `s` holds at least one reference (any name, defined or not). */
  predicate HasRef(s: string) {
    exists i: nat :: i < |s| && SigilAt(s, i)
  }

  /** `` `name\b `` matches at `i`: the backtick, the name, then a non-word
      character or the end of the string. */
  predicate RefAt(s: string, i: nat, name: string) {
    && i + 1 + |name| <= |s|
    && s[i] == '`'
    && s[i + 1..i + 1 + |name|] == name
    && (i + 1 + |name| == |s| || !IsWord(s[i + 1 + |name|]))
  }

  /** `re.findall(r"`(\w+)", s)` from index `i`: each name is the maximal
      word run after its backtick, and the search resumes after it. */
  function RefsFrom(s: string, i: nat): (refs: seq<string>)
    requires i <= |s|
    ensures forall k :: 0 <= k < |refs| ==> IsName(refs[k])
    ensures refs == [] <==> forall j: nat :: i <= j < |s| ==> !SigilAt(s, j)
    decreases |s| - i
  {
    if i == |s| then []
    else if SigilAt(s, i) then
      var j := SkipWord(s, i + 1);
      [s[i + 1..j]] + RefsFrom(s, j)
    else
      RefsFrom(s, i + 1)
  }

  /** Every collected name occurs as a boundary-respecting reference in `s`,
      the string the round starts from. */
  lemma CollectedNamesOccur(s: string, i: nat, k: nat)
    requires i <= |s| && k < |RefsFrom(s, i)|
    ensures exists j: nat :: i <= j < |s| && RefAt(s, j, RefsFrom(s, i)[k])
  {
    var j := CollectedNameAt(s, i, k);
  }

  /** A backtick and the maximal word run after it form a reference to that word. */
  lemma SigilStartsRef(s: string, i: nat)
    requires SigilAt(s, i)
    ensures RefAt(s, i, s[i + 1..SkipWord(s, i + 1)])
  {
    var e := SkipWord(s, i + 1);
    var name := s[i + 1..e];
    assert i + 1 + |name| == e;
    assert e == |s| || !IsWord(s[e]);
  }

  /** Where the `k`-th collected name occurs. */
  lemma {:induction false} CollectedNameAt(s: string, i: nat, k: nat) returns (j: nat)
    requires i <= |s| && k < |RefsFrom(s, i)|
    ensures i <= j < |s| && RefAt(s, j, RefsFrom(s, i)[k])
    decreases |s| - i
  {
    if SigilAt(s, i) {
      var e := SkipWord(s, i + 1);
      var rest := RefsFrom(s, e);
      assert RefsFrom(s, i) == [s[i + 1..e]] + rest;
      if k == 0 {
        j := i;
        SigilStartsRef(s, i);
      } else {
        assert RefsFrom(s, i)[k] == rest[k - 1];
        j := CollectedNameAt(s, e, k - 1);
      }
    } else {
      j := CollectedNameAt(s, i + 1, k);
    }
  }

  /** The name of the reference that starts at `j`: the maximal word run after the backtick. */
  function NameAt(s: string, j: nat): (name: string)
    requires SigilAt(s, j)
    ensures IsName(name) && RefAt(s, j, name)
  {
    SigilStartsRef(s, j);
    s[j + 1..SkipWord(s, j + 1)]
  }

  /** No reference starts inside the name of another. */
  lemma NoSigilInsideName(s: string, j: nat, k: nat)
    requires SigilAt(s, j) && j < k < SkipWord(s, j + 1)
    ensures !SigilAt(s, k)
  {
    assert IsWord(s[k]);
  }

  /** The collection starts with the first reference at or after `i` and
      resumes right after its name. */
  lemma {:induction false} RefsFromFirst(s: string, i: nat, j: nat)
    requires i <= j < |s| && SigilAt(s, j)
    requires forall k :: i <= k < j ==> !SigilAt(s, k)
    ensures RefsFrom(s, i) == [NameAt(s, j)] + RefsFrom(s, SkipWord(s, j + 1))
    decreases j - i
  {
    var rest := [NameAt(s, j)] + RefsFrom(s, SkipWord(s, j + 1));
    if i < j {
      assert !SigilAt(s, i);
      assert RefsFrom(s, i) == RefsFrom(s, i + 1);
      RefsFromFirst(s, i + 1, j);
      assert RefsFrom(s, i + 1) == rest;
    } else {
      RefsFromAtSigil(s, j);
    }
  }

  /** At a reference, the collection starts with its name. */
  lemma RefsFromAtSigil(s: string, j: nat)
    requires SigilAt(s, j)
    ensures RefsFrom(s, j) == [NameAt(s, j)] + RefsFrom(s, SkipWord(s, j + 1))
  {
    var e := SkipWord(s, j + 1);
    assert NameAt(s, j) == s[j + 1..e];
  }

  /** Every reference from `i` on is collected. */
  lemma {:induction false} RefsFromComplete(s: string, i: nat, j: nat)
    requires i <= j < |s| && SigilAt(s, j)
    ensures NameAt(s, j) in RefsFrom(s, i)
    decreases |s| - i
  {
    if SigilAt(s, i) {
      var e := SkipWord(s, i + 1);
      assert RefsFrom(s, i) == [s[i + 1..e]] + RefsFrom(s, e);
      if j != i {
        if j < e {
          NoSigilInsideName(s, i, j);
        }
        RefsFromComplete(s, e, j);
      }
    } else {
      RefsFromComplete(s, i + 1, j);
    }
  }

  /** Counting reference positions from `i` equals counting `i` itself
      and then the positions from `e`, when none lies strictly between. */
  lemma SigilCountSkip(s: string, i: nat, e: nat)
    requires i < e <= |s|
    requires forall k :: i < k < e ==> !SigilAt(s, k)
    ensures |set j: nat | i <= j < |s| && SigilAt(s, j)|
            == (if SigilAt(s, i) then 1 else 0) + |set j: nat | e <= j < |s| && SigilAt(s, j)|
  {
    var here := set j: nat | i <= j < |s| && SigilAt(s, j);
    var there := set j: nat | e <= j < |s| && SigilAt(s, j);
    if SigilAt(s, i) {
      assert here == there + {i};
      assert i !in there;
    } else {
      assert here == there;
    }
  }

  /** One name is collected per reference: the names are as many as the
      positions where a reference starts, so duplicates are kept. */
  lemma {:induction false} RefsFromCount(s: string, i: nat)
    requires i <= |s|
    ensures |RefsFrom(s, i)| == |set j: nat | i <= j < |s| && SigilAt(s, j)|
    decreases |s| - i
  {
    if i == |s| {
      assert (set j: nat | i <= j < |s| && SigilAt(s, j)) == {};
    } else if SigilAt(s, i) {
      var e := SkipWord(s, i + 1);
      RefsFromCount(s, e);
      forall k | i < k < e ensures !SigilAt(s, k) {
        NoSigilInsideName(s, i, k);
      }
      SigilCountSkip(s, i, e);
      assert RefsFrom(s, i) == [s[i + 1..e]] + RefsFrom(s, e);
    } else {
      RefsFromCount(s, i + 1);
      SigilCountSkip(s, i, i + 1);
      assert RefsFrom(s, i) == RefsFrom(s, i + 1);
    }
  }

  /** The names referenced in `s`, in order of appearance, duplicates kept. */
  function Refs(s: string): (refs: seq<string>)
    ensures forall k :: 0 <= k < |refs| ==> IsName(refs[k])
    ensures refs == [] <==> !HasRef(s)
  {
    RefsFrom(s, 0)
  }

  /** `re.findall` misses no reference and merges none: every reference's
      name is collected, and there are as many names as references. */
  lemma RefsCollectEveryReference(s: string)
    ensures forall j :: 0 <= j < |s| && SigilAt(s, j) ==> NameAt(s, j) in Refs(s)
    ensures |Refs(s)| == |set j: nat | 0 <= j < |s| && SigilAt(s, j)|
  {
    forall j | 0 <= j < |s| && SigilAt(s, j) ensures NameAt(s, j) in Refs(s) {
      RefsFromComplete(s, 0, j);
    }
    RefsFromCount(s, 0);
  }

  /** `re.sub(rf"`{name}\b", body, s)`, with `body` inserted literally.
      References are found left to right without overlap; inserted text is
      not searched again. */
  function Substitute(s: string, name: string, body: string): (r: string)
    requires IsName(name)
    ensures forall c :: c in r ==> c in s || c in body
    ensures '`' !in s ==> r == s
    decreases |s|
  {
    if |s| == 0 then ""
    else if RefAt(s, 0, name) then body + Substitute(s[1 + |name|..], name, body)
    else [s[0]] + Substitute(s[1..], name, body)
  }

  /** A reference found one position into `s` is a reference of `s[1..]`. */
  lemma RefAtTail(s: string, i: nat, name: string)
    requires |s| > 0
    ensures RefAt(s[1..], i, name) <==> RefAt(s, i + 1, name)
  {
    if i + 1 + |name| <= |s[1..]| {
      assert s[1..][i + 1..i + 1 + |name|] == s[i + 2..i + 2 + |name|];
    }
  }

  /** A string without a reference to `name` is left unchanged. */
  lemma {:induction false} SubstituteWithoutRef(s: string, name: string, body: string)
    requires IsName(name)
    requires forall i: nat :: i < |s| ==> !RefAt(s, i, name)
    ensures Substitute(s, name, body) == s
    decreases |s|
  {
    if |s| > 0 {
      forall i: nat | i < |s[1..]| ensures !RefAt(s[1..], i, name) {
        RefAtTail(s, i, name);
      }
      SubstituteWithoutRef(s[1..], name, body);
    }
  }

  /** Replacing a reference by itself changes nothing. */
  lemma {:induction false} SubstituteSelf(s: string, name: string)
    requires IsName(name)
    ensures Substitute(s, name, "`" + name) == s
    decreases |s|
  {
    if |s| > 0 {
      if RefAt(s, 0, name) {
        SubstituteSelf(s[1 + |name|..], name);
        assert s[..1 + |name|] == "`" + name;
        assert s == s[..1 + |name|] + s[1 + |name|..];
      } else {
        SubstituteSelf(s[1..], name);
        assert s == [s[0]] + s[1..];
      }
    }
  }

  /** Whether a reference starts at index 0 does not depend on what follows
      the string, as long as that does not begin with a word character. */
  lemma RefAtStartIgnoresSuffix(a: string, x: string, name: string)
    requires |a| > 0 && IsName(name)
    requires x == [] || !IsWord(x[0])
    ensures RefAt(a + x, 0, name) <==> RefAt(a, 0, name)
  {
    var s := a + x;
    var m := 1 + |name|;
    assert s[0] == a[0];
    if m <= |a| {
      assert s[1..m] == a[1..m] by {
        assert forall k :: 0 <= k < m - 1 ==> s[1..m][k] == a[1..m][k];
      }
      if m < |a| {
        assert s[m] == a[m];
      } else {
        assert m == |s| || s[m] == x[0];
      }
    } else if m <= |s| {
      assert |a| < m && |x| > 0;
      assert s[|a|] == x[0];
      assert s[1..m][|a| - 1] == s[|a|];
      assert IsWord(name[|a| - 1]);
      assert s[1..m] != name;
    }
  }

  /** A leading reference is replaced and the rest rewritten on its own. */
  lemma SubstituteLeadingRef(name: string, body: string, c: string)
    requires IsName(name)
    requires c == [] || !IsWord(c[0])
    ensures Substitute(("`" + name) + c, name, body) == body + Substitute(c, name, body)
  {
    var x := ("`" + name) + c;
    assert x[1..1 + |name|] == name;
    assert RefAt(x, 0, name);
    assert x[1 + |name|..] == c;
  }

  /** The index at which substitution resumes after the first position of `a`. */
  function ResumeAt(a: string, name: string): (k: nat)
    requires |a| > 0
    ensures 0 < k <= |a|
  {
    if RefAt(a, 0, name) then 1 + |name| else 1
  }

  /** Substitution of `a + x` consumes the first position of `a` exactly as
      substitution of `a` alone does. */
  lemma SubstituteHead(a: string, name: string, body: string, x: string)
    requires |a| > 0 && IsName(name)
    requires x == [] || !IsWord(x[0])
    ensures var k := ResumeAt(a, name);
            var head := if RefAt(a, 0, name) then body else [a[0]];
            && Substitute(a + x, name, body) == head + Substitute(a[k..] + x, name, body)
            && Substitute(a, name, body) == head + Substitute(a[k..], name, body)
  {
    RefAtStartIgnoresSuffix(a, x, name);
    var k := ResumeAt(a, name);
    assert (a + x)[k..] == a[k..] + x;
    assert (a + x)[0] == a[0];
  }

  /** One step of `SubstituteSplit`: if the split holds after the first
      position of `a`, it holds for `a`. */
  lemma SubstituteSplitStep(a: string, name: string, body: string, x: string)
    requires |a| > 0 && IsName(name)
    requires x == [] || !IsWord(x[0])
    requires Substitute(a[ResumeAt(a, name)..] + x, name, body)
             == Substitute(a[ResumeAt(a, name)..], name, body) + Substitute(x, name, body)
    ensures Substitute(a + x, name, body) == Substitute(a, name, body) + Substitute(x, name, body)
  {
    SubstituteHead(a, name, body, x);
    var k := ResumeAt(a, name);
    var head := if RefAt(a, 0, name) then body else [a[0]];
    Regroup(Substitute(a + x, name, body), Substitute(a[k..] + x, name, body), Substitute(a, name, body),
            head, Substitute(a[k..], name, body), Substitute(x, name, body));
  }


  /** Substitution distributes over a concatenation whose second part
      does not start with a word character: no reference straddles the seam. */
  lemma {:induction false} SubstituteConcat(a: string, name: string, body: string, x: string)
    requires IsName(name)
    requires x == [] || !IsWord(x[0])
    ensures Substitute(a + x, name, body) == Substitute(a, name, body) + Substitute(x, name, body)
    decreases |a|
  {
    if |a| == 0 {
      assert a + x == x;
      assert Substitute(a, name, body) == [];
      assert Substitute(a, name, body) + Substitute(x, name, body) == Substitute(x, name, body);
    } else {
      SubstituteConcat(a[ResumeAt(a, name)..], name, body, x);
      SubstituteSplitStep(a, name, body, x);
    }
  }

  /** Substitution splits at a reference: the part before it is rewritten on
      its own, the reference becomes `body`, and the part after it is
      rewritten on its own. */
  lemma SubstituteSplit(a: string, name: string, body: string, c: string)
    requires IsName(name)
    requires c == [] || !IsWord(c[0])
    ensures Substitute(a + ("`" + name) + c, name, body) == Substitute(a, name, body) + body + Substitute(c, name, body)
  {
    var x := ("`" + name) + c;
    assert a + ("`" + name) + c == a + x;
    SubstituteConcat(a, name, body, x);
    SubstituteLeadingRef(name, body, c);
    Regroup(Substitute(a + x, name, body), Substitute(x, name, body), Substitute(a, name, body) + body,
            Substitute(a, name, body), body, Substitute(c, name, body));
  }

  /** Text without a backtick passes through substitution verbatim. */
  lemma {:induction false} SubstitutePlainPrefix(a: string, name: string, body: string, c: string)
    requires IsName(name)
    requires '`' !in a
    ensures Substitute(a + c, name, body) == a + Substitute(c, name, body)
    decreases |a|
  {
    if |a| == 0 {
      assert a + c == c;
    } else {
      var s := a + c;
      assert !RefAt(s, 0, name) by {
        assert s[0] == a[0] && a[0] in a;
      }
      assert s[1..] == a[1..] + c;
      assert Substitute(s, name, body) == [a[0]] + Substitute(a[1..] + c, name, body);
      assert '`' !in a[1..] by {
        assert forall x :: x in a[1..] ==> x in a;
      }
      SubstitutePlainPrefix(a[1..], name, body, c);
      assert a == [a[0]] + a[1..];
      Regroup(Substitute(a + c, name, body), Substitute(a[1..] + c, name, body), a,
              [a[0]], a[1..], Substitute(c, name, body));
    }
  }

  /** `c` occurs in one of the table's bodies. */
  predicate InTable(c: char, macros: map<string, string>) {
    exists name :: name in macros && c in macros[name]
  }

  /** The inner loop of main.py:48-51: each listed name the table defines is
      substituted, in list order, into the string as it stands. */
  function Round(s: string, refs: seq<string>, macros: map<string, string>): (r: string)
    requires forall k :: 0 <= k < |refs| ==> IsName(refs[k])
    ensures (forall k :: 0 <= k < |refs| ==> refs[k] !in macros) ==> r == s
    decreases |refs|
  {
    if refs == [] then s
    else
      var name := refs[0];
      var next := if name in macros then Substitute(s, name, macros[name]) else s;
      Round(next, refs[1..], macros)
  }

  /** A round invents no characters: each comes from the string or from a
      body in the table. */
  lemma {:induction false} RoundKeepsCharacters(s: string, refs: seq<string>, macros: map<string, string>)
    requires forall k :: 0 <= k < |refs| ==> IsName(refs[k])
    ensures forall c :: c in Round(s, refs, macros) ==> c in s || InTable(c, macros)
    decreases |refs|
  {
    if refs != [] {
      var name := refs[0];
      var next := if name in macros then Substitute(s, name, macros[name]) else s;
      assert forall c :: c in next ==> c in s || InTable(c, macros);
      RoundKeepsCharacters(next, refs[1..], macros);
    }
  }

  /** A round over two lists of names is a round over the first followed
      by a round over the second. */
  lemma {:induction false} RoundConcat(s: string, a: seq<string>, b: seq<string>, macros: map<string, string>)
    requires forall k :: 0 <= k < |a| ==> IsName(a[k])
    requires forall k :: 0 <= k < |b| ==> IsName(b[k])
    ensures forall k :: 0 <= k < |a + b| ==> IsName((a + b)[k])
    ensures Round(s, a + b, macros) == Round(Round(s, a, macros), b, macros)
    decreases |a|
  {
    if a == [] {
      assert a + b == b;
    } else {
      var name := a[0];
      var next := if name in macros then Substitute(s, name, macros[name]) else s;
      assert (a + b)[0] == name;
      assert (a + b)[1..] == a[1..] + b;
      RoundConcat(next, a[1..], b, macros);
    }
  }

  /** One full round on `s`: every reference collected, then substituted. */
  function Step(s: string, macros: map<string, string>): (r: string)
    ensures !HasRef(s) ==> r == s
  {
    Round(s, Refs(s), macros)
  }

  /** `expand_value(value, macros, depth)`: the expanded string, and whether
      the depth ceiling was reached (where the source prints its warning). */
  function ExpandValue(value: string, macros: map<string, string>, depth: nat): (r: (string, bool))
    ensures depth >= MaxDepth ==> r == (value, true)
    ensures depth < MaxDepth && !HasRef(value) ==> r == (value, false)
    ensures !r.1 ==> !HasRef(r.0)
    decreases MaxDepth - depth
  {
    if depth >= MaxDepth then (value, true)
    else
      var refs := Refs(value);
      if refs == [] then (value, false)
      else ExpandValue(Round(value, refs, macros), macros, depth + 1)
  }

  /** How many rounds `expand_value` may still run from `depth`. */
  function Budget(depth: nat): nat {
    if depth >= MaxDepth then 0 else MaxDepth - depth
  }

  /** `k` rounds applied to `s`, with no stopping test: the reference
      definition `ExpandValue` is compared against. */
  function Rounds(s: string, macros: map<string, string>, k: nat): string
    decreases k
  {
    if k == 0 then s else Rounds(Step(s, macros), macros, k - 1)
  }

  /** The number of rounds after which the iteration from `s` first reaches
      a string without references, capped at `bound`. */
  function RoundsUntilClean(s: string, macros: map<string, string>, bound: nat): (k: nat)
    ensures k <= bound
    ensures forall j: nat :: j < k ==> HasRef(Rounds(s, macros, j))
    ensures k < bound ==> !HasRef(Rounds(s, macros, k))
    decreases bound
  {
    if bound == 0 || !HasRef(s) then 0
    else
      var k' := RoundsUntilClean(Step(s, macros), macros, bound - 1);
      assert forall j: nat :: j < 1 + k' ==> HasRef(Rounds(s, macros, j)) by {
        forall j: nat | j < 1 + k'
          ensures HasRef(Rounds(s, macros, j))
        {
          if j > 0 {
            assert Rounds(s, macros, j) == Rounds(Step(s, macros), macros, j - 1);
          }
        }
      }
      assert Rounds(s, macros, 1 + k') == Rounds(Step(s, macros), macros, k');
      1 + k'
  }

  /** Expansion is the iteration of rounds, stopped at the first string
      without references or after the remaining budget of rounds; the flag
      is set exactly when the whole budget was spent. */
  lemma {:induction false} ExpandValueIsBoundedIteration(value: string, macros: map<string, string>, depth: nat)
    ensures var k := RoundsUntilClean(value, macros, Budget(depth));
            ExpandValue(value, macros, depth) == (Rounds(value, macros, k), k == Budget(depth))
    decreases Budget(depth)
  {
    if depth < MaxDepth && HasRef(value) {
      ExpandValueIsBoundedIteration(Step(value, macros), macros, depth + 1);
      BoundedIterationStep(value, macros, depth);
    } else {
      assert RoundsUntilClean(value, macros, Budget(depth)) == 0;
      assert Rounds(value, macros, 0) == value;
    }
  }

  /** The inductive step of `ExpandValueIsBoundedIteration`: one round
      taken by `expand_value` is one round of the iteration. */
  lemma BoundedIterationStep(value: string, macros: map<string, string>, depth: nat)
    requires depth < MaxDepth && HasRef(value)
    requires var k := RoundsUntilClean(Step(value, macros), macros, Budget(depth + 1));
             ExpandValue(Step(value, macros), macros, depth + 1)
             == (Rounds(Step(value, macros), macros, k), k == Budget(depth + 1))
    ensures var k := RoundsUntilClean(value, macros, Budget(depth));
            ExpandValue(value, macros, depth) == (Rounds(value, macros, k), k == Budget(depth))
  {
    var bound := Budget(depth);
    var next := Step(value, macros);
    assert Budget(depth + 1) == bound - 1;
    var k' := RoundsUntilClean(next, macros, bound - 1);
    assert RoundsUntilClean(value, macros, bound) == 1 + k';
    assert Rounds(value, macros, 1 + k') == Rounds(next, macros, k');
    assert Refs(value) != [];
    assert ExpandValue(value, macros, depth) == ExpandValue(next, macros, depth + 1);
  }

  /** A string that still holds a reference but that a round leaves as it
      is keeps consuming rounds until the ceiling. */
  lemma {:induction false} StuckValueRunsToCeiling(value: string, macros: map<string, string>, depth: nat)
    requires HasRef(value) && Step(value, macros) == value
    ensures ExpandValue(value, macros, depth) == (value, true)
    decreases Budget(depth)
  {
    if depth < MaxDepth {
      StuckValueRunsToCeiling(value, macros, depth + 1);
    }
  }

  /** References to names the table does not define are never rewritten:
      a string whose names are all undefined comes back unchanged, and
      the flag is set whenever it holds any reference at all. */
  lemma UndefinedNamesAreKept(value: string, macros: map<string, string>, depth: nat)
    requires forall k :: 0 <= k < |Refs(value)| ==> Refs(value)[k] !in macros
    ensures ExpandValue(value, macros, depth) == (value, depth >= MaxDepth || HasRef(value))
  {
    if depth < MaxDepth && HasRef(value) {
      StuckValueRunsToCeiling(value, macros, depth);
    }
  }

  /** With an empty table every value is returned unchanged. */
  lemma EmptyTableChangesNothing(value: string, depth: nat)
    ensures ExpandValue(value, map[], depth) == (value, depth >= MaxDepth || HasRef(value))
  {
    UndefinedNamesAreKept(value, map[], depth);
  }

  /** Expanding a completely expanded value again changes nothing. */
  lemma ExpandedValueIsStable(value: string, macros: map<string, string>, depth: nat, again: nat)
    requires !ExpandValue(value, macros, depth).1 && again < MaxDepth
    ensures ExpandValue(ExpandValue(value, macros, depth).0, macros, again) == (ExpandValue(value, macros, depth).0, false)
  {
  }
}

=== FILE: expansion_examples.dfy ===
/** Worked cases of `expand_value`: word boundaries, nested definitions,
    self-reference, unresolved names and the empty string. */
module ExpansionExamples {
  import opened Text
  import opened Expansion

  lemma SingleRef(c: char)
    requires IsWord(c)
    ensures Refs(['`', c]) == [[c]]
  {
    var s := ['`', c];
    assert SigilAt(s, 0);
    assert SkipWord(s, 1) == 2;
    assert s[1..2] == [c];
  }

  lemma ReplaceWhole(c: char, body: string)
    requires IsWord(c)
    ensures Substitute(['`', c], [c], body) == body
  {
    assert ['`', c] == ("`" + [c]) + "";
    SubstituteLeadingRef([c], body, "");
  }

  /** `A` expands to `` `B ``, which expands to `end`: two rounds, no ceiling. */
  lemma NestedDefinitionsExpand()
    ensures ExpandValue("`A", map["A" := "`B", "B" := "end"], 0) == ("end", false)
    ensures RoundsUntilClean("`A", map["A" := "`B", "B" := "end"], MaxDepth) == 2
  {
    var macros := map["A" := "`B", "B" := "end"];
    SingleRef('A');
    ReplaceWhole('A', "`B");
    assert Step("`A", macros) == "`B";
    SingleRef('B');
    ReplaceWhole('B', "end");
    assert Step("`B", macros) == "end";
    assert !HasRef("end");
    assert ExpandValue("`A", macros, 0) == ExpandValue("`B", macros, 1);
    assert ExpandValue("`B", macros, 1) == ExpandValue("end", macros, 2);
    assert SigilAt("`A", 0) && SigilAt("`B", 0);
    assert RoundsUntilClean("end", macros, MaxDepth - 2) == 0;
    assert RoundsUntilClean("`B", macros, MaxDepth - 1) == 1;
  }

  /** `A` defined as `` `A `` is rewritten to itself in every round until
      the ceiling stops it; the value comes back as it was. */
  lemma SelfReferenceHitsCeiling()
    ensures ExpandValue("`A", map["A" := "`A"], 0) == ("`A", true)
  {
    var macros := map["A" := "`A"];
    SingleRef('A');
    SubstituteSelf("`A", "A");
    assert Step("`A", macros) == "`A";
    assert SigilAt("`A", 0);
    StuckValueRunsToCeiling("`A", macros, 0);
  }

  /** `` `FOO `` inside `` `FOOBAR `` is not a reference to `FOO`. */
  lemma PrefixOfLongerNameIsNotReplaced()
    ensures Substitute("`FOOBAR", "FOO", "X") == "`FOOBAR"
  {
    var s := "`FOOBAR";
    forall i: nat | i < |s| ensures !RefAt(s, i, "FOO") {
      if i == 0 {
        assert IsWord(s[4]);
      } else {
        assert s[i] != '`';
      }
    }
    SubstituteWithoutRef(s, "FOO", "X");
  }

  /** A whole reference to `FOO` is replaced. */
  lemma WholeNameIsReplaced()
    ensures Substitute("`FOO", "FOO", "X") == "X"
  {
    assert "`FOO" == ("`" + "FOO") + "";
    SubstituteLeadingRef("FOO", "X", "");
  }

  /** With `FOO` defined as `X`, `` `FOO `` expands to `X`. */
  lemma WholeNameExpands()
    ensures ExpandValue("`FOO", map["FOO" := "X"], 0) == ("X", false)
  {
    var macros := map["FOO" := "X"];
    var s := "`FOO";
    assert SigilAt(s, 0);
    assert SkipWord(s, 1) == 4;
    assert s[1..4] == "FOO";
    assert Refs(s) == ["FOO"];
    WholeNameIsReplaced();
    assert Step(s, macros) == "X";
    assert !HasRef("X");
  }

  /** Expanding `` `FOOBAR `` with only `FOO` defined leaves it as it is
      (and, since a reference remains, runs to the ceiling). */
  lemma LongerNameIsLeftAlone()
    ensures ExpandValue("`FOOBAR", map["FOO" := "X"], 0) == ("`FOOBAR", true)
  {
    var s := "`FOOBAR";
    assert SigilAt(s, 0);
    assert SkipWord(s, 1) == 7;
    assert s[1..7] == "FOOBAR";
    assert Refs(s) == ["FOOBAR"];
    UndefinedNamesAreKept(s, map["FOO" := "X"], 0);
  }

  /* A round in which one substitution hides a later reference. The value
     `` `A `B`A `` names `A`, `B` and `A`; with `A` = `x`, replacing `A`
     turns `` `B`A `` into `` `Bx ``, so the `B` step of the same round
     finds nothing. The helpers take their strings as parameters, which
     keeps the verifier from evaluating `Substitute` on literals. */

  lemma GluedRefs()
    ensures Refs("`A `B`A") == ["A", "B", "A"]
  {
    var s := "`A `B`A";
    assert SigilAt(s, 0) && !SigilAt(s, 2) && SigilAt(s, 3) && SigilAt(s, 5);
    assert SkipWord(s, 1) == 2 && SkipWord(s, 4) == 5 && SkipWord(s, 6) == 7;
    assert s[1..2] == "A" && s[4..5] == "B" && s[6..7] == "A";
    assert RefsFrom(s, 7) == [];
  }

  lemma NoAInGap(t: string)
    requires t == " `B"
    ensures Substitute(t, "A", "x") == t
  {
    forall i: nat | i < |t| ensures !RefAt(t, i, "A") {
      assert i == 1 ==> t[2] == 'B';
    }
    SubstituteWithoutRef(t, "A", "x");
  }

  lemma GluedTail(t: string, c: string)
    requires t == " `B" && c == t + ("`" + "A")
    ensures Substitute(c, "A", "x") == t + "x"
  {
    assert c == t + ("`" + "A") + "";
    SubstituteSplit(t, "A", "x", "");
    NoAInGap(t);
  }

  lemma GluedSplit(s: string, t: string, c: string)
    requires t == " `B" && c == t + ("`" + "A") && s == ("`" + "A") + c
    ensures Substitute(s, "A", "x") == "x" + t + "x"
  {
    GluedTail(t, c);
    SubstituteLeadingRef("A", "x", c);
  }

  /** Replacing `A` by `x` glues the second `A`'s body to `` `B ``. */
  lemma GluedFirstSubstitution()
    ensures Substitute("`A `B`A", "A", "x") == "x `Bx"
  {
    var t := " `B";
    var c := t + ("`" + "A");
    var s := ("`" + "A") + c;
    GluedSplit(s, t, c);
    assert s == "`A `B`A";
    assert "x" + t + "x" == "x `Bx";
  }

  /** In `x `Bx` the only reference is to `Bx`; `A` and `B` are not referenced. */
  lemma LeftoverRefs(s: string)
    requires s == "x `Bx"
    ensures forall i: nat :: i < |s| ==> !RefAt(s, i, "A") && !RefAt(s, i, "B")
    ensures SigilAt(s, 2) && Refs(s) == ["Bx"]
  {
    forall i: nat | i < |s| ensures !RefAt(s, i, "A") && !RefAt(s, i, "B") {
      assert i == 2 ==> s[3] == 'B' && s[4] == 'x';
    }
    assert SkipWord(s, 3) == 5 && s[3..5] == "Bx";
    assert RefsFrom(s, 5) == [];
    assert RefsFrom(s, 2) == ["Bx"];
    assert !SigilAt(s, 0) && !SigilAt(s, 1);
    assert RefsFrom(s, 0) == RefsFrom(s, 1) == RefsFrom(s, 2);
  }

  /** The `B` and second `A` steps of the round change nothing. */
  lemma RestOfRound(s: string, macros: map<string, string>)
    requires s == "x `Bx" && macros == map["A" := "x", "B" := "y"]
    ensures Round(s, ["B", "A"], macros) == s
  {
    LeftoverRefs(s);
    SubstituteWithoutRef(s, "B", "y");
    SubstituteWithoutRef(s, "A", "x");
    assert ["B", "A"][1..] == ["A"];
    assert ["A"][1..] == [];
  }

  /** Substitutions within a round act on the string as the earlier ones
      left it, so a reference present when the round starts can be gone
      by the time its name's turn comes: the defined macro `B` is not
      expanded in this round. */
  lemma EarlierSubstitutionHidesReference()
    ensures Step("`A `B`A", map["A" := "x", "B" := "y"]) == "x `Bx"
  {
    GluedRefs();
    GluedFirstSubstitution();
    RestOfRound("x `Bx", map["A" := "x", "B" := "y"]);
    assert ["A", "B", "A"][1..] == ["B", "A"];
  }

  /** A value with references whose first round leaves only undefined
      names comes back as that round left it, flagged if a reference
      remains. */
  lemma OneRoundThenStuck(s: string, macros: map<string, string>, t: string)
    requires HasRef(s) && Step(s, macros) == t
    requires forall k :: 0 <= k < |Refs(t)| ==> Refs(t)[k] !in macros
    ensures ExpandValue(s, macros, 0) == (t, HasRef(t))
  {
    UndefinedNamesAreKept(t, macros, 1);
  }

  lemma HiddenReference(s: string, macros: map<string, string>, t: string)
    requires s == "`A `B`A" && macros == map["A" := "x", "B" := "y"] && t == "x `Bx"
    ensures ExpandValue(s, macros, 0) == (t, true)
  {
    assert SigilAt(s, 0);
    EarlierSubstitutionHidesReference();
    LeftoverRefs(t);
    OneRoundThenStuck(s, macros, t);
  }

  /** The whole expansion: what the round leaves names only the undefined
      `Bx`, so the value runs to the ceiling and `B` is never expanded. */
  lemma HiddenReferenceRunsToCeiling()
    ensures ExpandValue("`A `B`A", map["A" := "x", "B" := "y"], 0) == ("x `Bx", true)
  {
    HiddenReference("`A `B`A", map["A" := "x", "B" := "y"], "x `Bx");
  }

  /** With an empty table `` `BAR `` passes through unchanged. */
  lemma UnresolvedReferencePassesThrough()
    ensures ExpandValue("`BAR", map[], 0).0 == "`BAR"
  {
    EmptyTableChangesNothing("`BAR", 0);
  }

  /** The empty string expands to itself without reaching the ceiling. */
  lemma EmptyValue(macros: map<string, string>)
    ensures ExpandValue("", macros, 0) == ("", false)
  {
  }
}

=== FILE: macro_table.dfy ===
/** Parsing `define-style definition text into a macro table
    (`extract_macros`, main.py:22-33).

    The pattern `` `define\s+(\w+)\s+(.*?)(?=\s*`define|$) `` with DOTALL and
    MULTILINE is modelled by hand. All three runs before the body are
    maximal. The engine never gives back part of the first `\s+` or of
    `(\w+)`, because whitespace and word characters are disjoint, so a
    shorter run leaves a character the next item cannot start with. The
    second `\s+` is followed by `(.*?)`, which could start on whitespace,
    but it is never given back either: after the maximal run the lazy body
    always succeeds, since `$` holds at the end of the text at the latest.
    The lazy body ends at the first index where the lookahead holds, and
    because `$` under MULTILINE matches before every newline a body never
    crosses a line end. `findall` resumes the search at the end of a
    match and moves on one character after a failed attempt. */
module MacroTable {
  import opened Text
  import opened Cleanup

  datatype Option<T> = None | Some(value: T)

  /** The literal that introduces a definition. */
  const Marker := "`define"

  /** One captured `(name, value)` pair, before cleanup. */
  datatype Definition = Definition(name: string, body: string)

  /** A successful match: the captured pair and the index just past the body. */
  datatype Match = Match(def: Definition, end: nat)

  predicate MarkerAt(s: string, i: nat) {
    StartsAt(s, i, Marker)
  }

  /** The lookahead `(?=\s*`define|$)` holds at index `e`. */
  predicate BodyStopsAt(s: string, e: nat)
    requires e <= |s|
  {
    e == |s| || s[e] == '\n' || MarkerAt(s, SkipSpaces(s, e))
  }

  /** The first index at or after `b` where a lazy body may stop. */
  function BodyEnd(s: string, b: nat): (e: nat)
    requires b <= |s|
    ensures b <= e <= |s|
    ensures BodyStopsAt(s, e)
    ensures forall k :: b <= k < e ==> !BodyStopsAt(s, k)
    decreases |s| - b
  {
    if BodyStopsAt(s, b) then b else BodyEnd(s, b + 1)
  }

  /** `` `define\s+(\w+)\s `` matches at `p` with the name at `s[n..w]`. */
  predicate HeaderAt(s: string, p: nat, n: nat, w: nat) {
    && MarkerAt(s, p)
    && p + |Marker| < n < w < |s|
    && (forall k :: p + |Marker| <= k < n ==> IsSpace(s[k]))
    && (forall k :: n <= k < w ==> IsWord(s[k]))
    && IsSpace(s[w])
  }

  /** After the name ending at `w`, `\s+(.*?)(?=\s*`define|$)` captures `body`
      and stops at `end`: a maximal whitespace run, then the shortest body
      after which the lookahead holds. */
  predicate BodyAfter(s: string, w: nat, body: string, end: nat) {
    && w < end - |body| && end <= |s|
    && s[end - |body|..end] == body
    && (forall k :: w <= k < end - |body| ==> IsSpace(s[k]))
    && (end - |body| == |s| || !IsSpace(s[end - |body|]))
    && BodyStopsAt(s, end)
    && (forall k :: end - |body| <= k < end ==> !BodyStopsAt(s, k))
  }

  /** One attempt of the pattern at index `p`. */
  function MatchAt(s: string, p: nat): (r: Option<Match>)
    requires p <= |s|
    ensures r.Some? ==> MarkerAt(s, p) && p < r.value.end <= |s|
    ensures r.Some? ==> IsName(r.value.def.name)
  {
    if !MarkerAt(s, p) then None
    else
      var n := SkipSpaces(s, p + |Marker|);
      var w := SkipWord(s, n);
      var b := SkipSpaces(s, w);
      if n == p + |Marker| || w == n || b == w then None
      else
        var e := BodyEnd(s, b);
        Some(Match(Definition(s[n..w], s[b..e]), e))
  }

  /** A header match has the bounds the scanner computes: the name starts
      where the whitespace after the marker ends and stops where the word
      characters do, and whitespace follows it. */
  lemma HeaderIsScanned(s: string, p: nat, n: nat, w: nat)
    requires HeaderAt(s, p, n, w)
    ensures SkipSpaces(s, p + |Marker|) == n && SkipWord(s, n) == w
    ensures SkipSpaces(s, w) != w
  {
    assert IsWord(s[n]) && !IsSpace(s[n]);
    SkipSpacesOverRun(s, p + |Marker|, n);
    assert IsSpace(s[w]) && !IsWord(s[w]);
    SkipWordOverRun(s, n, w);
  }

  /** After whitespace at `w`, the scanner's body is the one the pattern captures. */
  lemma ScannedBodyAfter(s: string, w: nat)
    requires w < |s| && IsSpace(s[w])
    ensures var b := SkipSpaces(s, w);
            BodyAfter(s, w, s[b..BodyEnd(s, b)], BodyEnd(s, b))
  {
    var b := SkipSpaces(s, w);
    var e := BodyEnd(s, b);
    assert |s[b..e]| == e - b;
  }

  /** `MatchAt` finds a match exactly when the header of the pattern matches,
      and then captures the name of that header and the body the lazy
      group with its lookahead determines. */
  lemma MatchAtIsPatternMatch(s: string, p: nat)
    requires p <= |s|
    ensures MatchAt(s, p).Some? <==> exists n: nat, w: nat :: HeaderAt(s, p, n, w)
    ensures forall n: nat, w: nat :: HeaderAt(s, p, n, w) ==>
              && MatchAt(s, p).Some?
              && MatchAt(s, p).value.def.name == s[n..w]
              && BodyAfter(s, w, MatchAt(s, p).value.def.body, MatchAt(s, p).value.end)
  {
    if MarkerAt(s, p) {
      var n := SkipSpaces(s, p + |Marker|);
      var w := SkipWord(s, n);
      var b := SkipSpaces(s, w);
      forall n': nat, w': nat | HeaderAt(s, p, n', w')
        ensures n' == n && w' == w && n != p + |Marker| && w != n && b != w
      {
        HeaderIsScanned(s, p, n', w');
      }
      if n != p + |Marker| && w != n && b != w {
        assert HeaderAt(s, p, n, w);
        var e := BodyEnd(s, b);
        assert MatchAt(s, p) == Some(Match(Definition(s[n..w], s[b..e]), e));
        ScannedBodyAfter(s, w);
      }
    }
  }

  /** `BodyEnd` finds the first stop point at or after `b`. */
  lemma {:induction false} BodyEndIsFirstStop(s: string, b: nat, e: nat)
    requires b <= e <= |s| && BodyStopsAt(s, e)
    requires forall k :: b <= k < e ==> !BodyStopsAt(s, k)
    ensures BodyEnd(s, b) == e
    decreases e - b
  {
    if b < e {
      BodyEndIsFirstStop(s, b + 1, e);
    }
  }

  /** Conversely, every match of the pattern at `p` is the one `MatchAt`
      returns: its name, its body and its end. */
  lemma PatternMatchIsMatchAt(s: string, p: nat, n: nat, w: nat, body: string, end: nat)
    requires HeaderAt(s, p, n, w) && BodyAfter(s, w, body, end)
    ensures MatchAt(s, p) == Some(Match(Definition(s[n..w], body), end))
  {
    var b := end - |body|;
    assert IsWord(s[n]) && !IsSpace(s[n]);
    SkipSpacesOverRun(s, p + |Marker|, n);
    assert IsSpace(s[w]) && !IsWord(s[w]);
    SkipWordOverRun(s, n, w);
    SkipSpacesOverRun(s, w, b);
    BodyEndIsFirstStop(s, b, end);
    assert s[b..end] == body;
  }

  /** A body the lazy group can capture whole: no line break and no
      whitespace at either end. */
  predicate PlainBody(body: string) {
    '\n' !in body && Trimmed(body)
  }

  /** No marker starts at an index in `[b, e)`. */
  predicate NoMarkerWithin(s: string, b: nat, e: nat) {
    forall i :: b <= i < e ==> !MarkerAt(s, i)
  }

  /** The canonical text of one definition: marker, space, name, space, body. */
  function Line(name: string, body: string): (line: string)
    ensures |line| == |Marker| + 2 + |name| + |body|
  {
    Marker + " " + name + " " + body
  }

  /** No index inside a plain body is a stop point of the lazy group. */
  lemma PlainBodyDoesNotStop(s: string, b: nat, body: string, k: nat)
    requires PlainBody(body) && StartsAt(s, b, body)
    requires NoMarkerWithin(s, b, b + |body|)
    requires b <= k < b + |body|
    ensures !BodyStopsAt(s, k)
  {
    var e := b + |body|;
    assert s[k] == body[k - b];
    assert body[k - b] in body;
    assert s[e - 1] == body[|body| - 1];
    assert !IsSpace(s[e - 1]);
    var j := SkipSpaces(s, k);
    assert j < e;
    assert !MarkerAt(s, j);
  }

  /** `t` occurs in `s` at `i` exactly when each of its characters does. */
  lemma StartsAtChars(s: string, i: nat, t: string)
    requires i + |t| <= |s|
    ensures StartsAt(s, i, t) <==> forall k :: 0 <= k < |t| ==> s[i + k] == t[k]
  {
    if forall k :: 0 <= k < |t| ==> s[i + k] == t[k] {
      assert s[i..i + |t|] == t;
    }
  }

  /** An occurrence inside an occurrence is an occurrence. */
  lemma StartsAtWithin(s: string, p: nat, line: string, i: nat, t: string)
    requires StartsAt(s, p, line) && StartsAt(line, i, t)
    ensures StartsAt(s, p + i, t)
  {
    StartsAtChars(s, p, line);
    StartsAtChars(line, i, t);
    StartsAtChars(s, p + i, t);
  }

  /** Where the parts of `Line(name, body)` sit. */
  lemma LineParts(name: string, body: string)
    ensures var line := Line(name, body);
            && StartsAt(line, 0, Marker)
            && line[|Marker|] == ' '
            && StartsAt(line, |Marker| + 1, name)
            && line[|Marker| + 1 + |name|] == ' '
            && StartsAt(line, |Marker| + 2 + |name|, body)
  {
    var line := Line(name, body);
    StartsAtChars(line, 0, Marker);
    StartsAtChars(line, |Marker| + 1, name);
    StartsAtChars(line, |Marker| + 2 + |name|, body);
  }

  /** The header of `Line(name, body)` at `p` matches with the name's bounds. */
  lemma LineHeader(s: string, p: nat, name: string, body: string)
    requires IsName(name) && StartsAt(s, p, Line(name, body))
    ensures HeaderAt(s, p, p + |Marker| + 1, p + |Marker| + 1 + |name|)
    ensures s[p + |Marker| + 1..p + |Marker| + 1 + |name|] == name
    ensures StartsAt(s, p + |Marker| + 2 + |name|, body)
  {
    var line := Line(name, body);
    var n := p + |Marker| + 1;
    LineParts(name, body);
    StartsAtWithin(s, p, line, 0, Marker);
    StartsAtWithin(s, p, line, |Marker| + 1, name);
    StartsAtWithin(s, p, line, |Marker| + 2 + |name|, body);
    StartsAtChars(s, p, line);
    assert s[p + |Marker|] == line[|Marker|];
    assert s[n + |name|] == line[|Marker| + 1 + |name|];
    StartsAtChars(s, n, name);
  }

  /** A plain body after one space, followed by a stop point, is what
      `\s+(.*?)` captures after the name. */
  lemma PlainBodyAfter(s: string, w: nat, body: string, e: nat)
    requires w < |s| && IsSpace(s[w])
    requires PlainBody(body) && StartsAt(s, w + 1, body) && e == w + 1 + |body|
    requires NoMarkerWithin(s, w + 1, e)
    requires BodyStopsAt(s, e)
    requires body == [] ==> e == |s| || !IsSpace(s[e])
    ensures BodyAfter(s, w, body, e)
  {
    var b := w + 1;
    forall k | b <= k < e ensures !BodyStopsAt(s, k) {
      PlainBodyDoesNotStop(s, b, body, k);
    }
    assert body != [] ==> s[b] == body[0] by {
      StartsAtChars(s, b, body);
    }
    assert s[b..e] == body;
  }

  /** A definition written as `Line(name, body)` at `p`, with no marker
      starting inside its body and followed by a stop point (a line end, the
      end of the text or whitespace and the next marker), is matched with
      exactly that name and body. The body may hold references such as
      `` `B ``. */
  lemma DefinitionLineMatches(s: string, p: nat, name: string, body: string)
    requires IsName(name) && PlainBody(body)
    requires StartsAt(s, p, Line(name, body))
    requires NoMarkerWithin(s, p + |Marker| + 2 + |name|, p + |Line(name, body)|)
    requires BodyStopsAt(s, p + |Line(name, body)|)
    requires body == [] ==> p + |Line(name, body)| == |s| || !IsSpace(s[p + |Line(name, body)|])
    ensures MatchAt(s, p) == Some(Match(Definition(name, body), p + |Line(name, body)|))
  {
    var n := p + |Marker| + 1;
    var w := n + |name|;
    var e := p + |Line(name, body)|;
    LineHeader(s, p, name, body);
    assert w < |s| && IsSpace(s[w]);
    assert StartsAt(s, w + 1, body);
    assert e == w + 1 + |body|;
    PlainBodyAfter(s, w, body, e);
    assert HeaderAt(s, p, n, w) && s[n..w] == name;
    NamedPatternMatch(s, p, n, w, name, body, e);
  }

  /** `PatternMatchIsMatchAt` with the captured name given by value. */
  lemma NamedPatternMatch(s: string, p: nat, n: nat, w: nat, name: string, body: string, end: nat)
    requires HeaderAt(s, p, n, w) && s[n..w] == name && BodyAfter(s, w, body, end)
    ensures MatchAt(s, p) == Some(Match(Definition(name, body), end))
  {
    PatternMatchIsMatchAt(s, p, n, w, body, end);
  }

  /** A captured body never contains a newline: `$` stops it at the line end. */
  lemma BodyStopsAtLineEnd(s: string, w: nat, body: string, end: nat)
    requires BodyAfter(s, w, body, end)
    ensures '\n' !in body
  {
    if '\n' in body {
      var i :| 0 <= i < |body| && body[i] == '\n';
      assert s[end - |body| + i] == '\n';
      assert BodyStopsAt(s, end - |body| + i);
    }
  }

  /** `pattern.findall(s)` from index `p`: every pair captured, in text order. */
  function Scan(s: string, p: nat): (defs: seq<Definition>)
    requires p <= |s|
    ensures forall i :: 0 <= i < |defs| ==> IsName(defs[i].name)
    ensures (forall i :: p <= i < |s| ==> !MarkerAt(s, i)) ==> defs == []
    decreases |s| - p
  {
    if p == |s| then []
    else
      match MatchAt(s, p)
      case None => Scan(s, p + 1)
      case Some(m) => [m.def] + Scan(s, m.end)
  }

  /** The search takes the first position at or after `p` where the
      pattern matches, and resumes at the end of that match. */
  lemma {:induction false} ScanFindsFirstMatch(s: string, p: nat, q: nat)
    requires p <= q < |s|
    requires forall r :: p <= r < q ==> MatchAt(s, r).None?
    requires MatchAt(s, q).Some?
    ensures Scan(s, p) == [MatchAt(s, q).value.def] + Scan(s, MatchAt(s, q).value.end)
    decreases q - p
  {
    if p < q {
      ScanFindsFirstMatch(s, p + 1, q);
    }
  }

  /** No match from `p` on, stated as a quantifier over positions. */
  predicate NoMatchFrom(s: string, p: nat) {
    forall q :: p <= q < |s| ==> MatchAt(s, q).None?
  }

  /** Where the pattern matches nowhere from `p` on, the search finds nothing. */
  lemma {:induction false} NoMatchGivesEmptyScan(s: string, p: nat)
    requires p <= |s| && NoMatchFrom(s, p)
    ensures Scan(s, p) == []
    decreases |s| - p
  {
    if p < |s| {
      assert MatchAt(s, p).None?;
      assert NoMatchFrom(s, p + 1);
      NoMatchGivesEmptyScan(s, p + 1);
      assert Scan(s, p) == Scan(s, p + 1);
    }
  }

  /** Where the pattern matches at some `q` at or after `p`, the search finds something. */
  lemma {:induction false} MatchGivesNonEmptyScan(s: string, p: nat, q: nat)
    requires p <= q < |s| && MatchAt(s, q).Some?
    ensures Scan(s, p) != []
    decreases q - p
  {
    match MatchAt(s, p)
    case Some(m) =>
      assert Scan(s, p) == [m.def] + Scan(s, m.end);
    case None =>
      assert p < q;
      MatchGivesNonEmptyScan(s, p + 1, q);
      assert Scan(s, p) == Scan(s, p + 1);
  }

  /** The search finds nothing exactly when the pattern matches nowhere
      from `p` on. */
  lemma ScanIsEmptyWithoutMatch(s: string, p: nat)
    requires p <= |s|
    ensures Scan(s, p) == [] <==> NoMatchFrom(s, p)
  {
    if NoMatchFrom(s, p) {
      NoMatchGivesEmptyScan(s, p);
    } else {
      var q :| p <= q < |s| && MatchAt(s, q).Some?;
      MatchGivesNonEmptyScan(s, p, q);
    }
  }

  /** Every captured body ends at the end of its line or before the
      whitespace that precedes the next marker on that line. */
  lemma ScannedBodiesAreSingleLines(s: string, p: nat)
    requires p <= |s|
    ensures forall d :: d in Scan(s, p) ==> '\n' !in d.body
    decreases |s| - p
  {
    if p < |s| {
      match MatchAt(s, p)
      case None => ScannedBodiesAreSingleLines(s, p + 1);
      case Some(m) =>
        MatchAtIsPatternMatch(s, p);
        var n: nat, w: nat :| HeaderAt(s, p, n, w);
        BodyStopsAtLineEnd(s, w, m.def.body, m.end);
        ScannedBodiesAreSingleLines(s, m.end);
    }
  }

  /** One step of the search: a match is taken whole, anything else moves on by one. */
  lemma ScanStep(s: string, p: nat)
    requires p < |s|
    ensures MatchAt(s, p).Some? ==> Scan(s, p) == [MatchAt(s, p).value.def] + Scan(s, MatchAt(s, p).value.end)
    ensures !MarkerAt(s, p) ==> Scan(s, p) == Scan(s, p + 1)
  {
  }

  /** No later definition in `defs` has the name of `defs[i]`. */
  predicate LastOfName(defs: seq<Definition>, i: nat)
    requires i < |defs|
  {
    forall j :: i < j < |defs| ==> defs[j].name != defs[i].name
  }

  /** The names defined in `defs`. */
  function Names(defs: seq<Definition>): set<string> {
    set d | d in defs :: d.name
  }

  /** The loop of main.py:29-32: each pair, cleaned, is stored under its
      name, overwriting whatever was there. */
  function Insert(macros: map<string, string>, defs: seq<Definition>): (r: map<string, string>)
    ensures r.Keys == macros.Keys + Names(defs)
    decreases |defs|
  {
    if defs == [] then macros
    else
      var d := defs[0];
      var next := macros[d.name := Normalize(d.body)];
      NamesCons(defs);
      assert next.Keys == macros.Keys + {d.name};
      Insert(next, defs[1..])
  }

  /** The names of a nonempty list: its head's and its tail's. */
  lemma NamesCons(defs: seq<Definition>)
    requires defs != []
    ensures Names(defs) == {defs[0].name} + Names(defs[1..])
  {
    assert forall e :: e in defs <==> e == defs[0] || e in defs[1..];
  }

  /** One step of the insertion loop. */
  lemma InsertStep(macros: map<string, string>, d: Definition, rest: seq<Definition>)
    ensures Insert(macros, [d] + rest) == Insert(macros[d.name := Normalize(d.body)], rest)
  {
    assert ([d] + rest)[1..] == rest;
  }

  /** Every stored body is clean if every body already there was. */
  lemma {:induction false} InsertKeepsNormalized(macros: map<string, string>, defs: seq<Definition>)
    requires forall name :: name in macros ==> IsNormalized(macros[name])
    ensures forall name :: name in Insert(macros, defs) ==> IsNormalized(Insert(macros, defs)[name])
    decreases |defs|
  {
    if defs != [] {
      var d := defs[0];
      var next := macros[d.name := Normalize(d.body)];
      assert forall name :: name in next ==> IsNormalized(next[name]);
      InsertKeepsNormalized(next, defs[1..]);
    }
  }

  /** A name that `defs` does not define keeps its entry. */
  lemma {:induction false} InsertKeepsUndefined(macros: map<string, string>, defs: seq<Definition>, name: string)
    requires name in macros
    requires forall i :: 0 <= i < |defs| ==> defs[i].name != name
    ensures name in Insert(macros, defs) && Insert(macros, defs)[name] == macros[name]
    decreases |defs|
  {
    if defs != [] {
      InsertKeepsUndefined(macros[defs[0].name := Normalize(defs[0].body)], defs[1..], name);
    }
  }

  /** Last-write-wins: a name's entry is the cleaned body of its last definition. */
  lemma {:induction false} InsertLastWins(macros: map<string, string>, defs: seq<Definition>, i: nat)
    requires i < |defs| && LastOfName(defs, i)
    ensures defs[i].name in Insert(macros, defs)
    ensures Insert(macros, defs)[defs[i].name] == Normalize(defs[i].body)
    decreases |defs|
  {
    var d := defs[0];
    var next := macros[d.name := Normalize(d.body)];
    if i == 0 {
      InsertKeepsUndefined(next, defs[1..], d.name);
    } else {
      assert LastOfName(defs[1..], i - 1);
      InsertLastWins(next, defs[1..], i - 1);
    }
  }

  /** `extract_macros`: parse the definition text and build the table. */
  function ExtractMacros(text: string): (macros: map<string, string>)
    ensures forall name :: name in macros ==> IsName(name) && IsNormalized(macros[name])
    ensures (forall i :: 0 <= i < |text| ==> !MarkerAt(text, i)) ==> macros == map[]
  {
    var defs := Scan(text, 0);
    InsertKeepsNormalized(map[], defs);
    Insert(map[], defs)
  }

  /** Last-write-wins over the whole text: exactly the defined names have
      entries, and each entry is the cleaned body of the name's last
      definition. */
  lemma LastDefinitionWins(text: string)
    ensures ExtractMacros(text).Keys == Names(Scan(text, 0))
    ensures forall i :: 0 <= i < |Scan(text, 0)| && LastOfName(Scan(text, 0), i) ==>
              ExtractMacros(text)[Scan(text, 0)[i].name] == Normalize(Scan(text, 0)[i].body)
  {
    var defs := Scan(text, 0);
    forall i | 0 <= i < |defs| && LastOfName(defs, i)
      ensures ExtractMacros(text)[defs[i].name] == Normalize(defs[i].body)
    {
      InsertLastWins(map[], defs, i);
    }
  }
}

=== FILE: pipeline_examples.dfy ===
/** The two halves together: a table read from definition text, then a
    value expanded with it. */
module PipelineExamples {
  import opened MacroTable
  import opened Expansion
  import opened MacroTableExamples
  import opened ExpansionExamples

  /** `A` is defined as `` `B `` and `B` as `end` in the definition text;
      `` `A `` then expands to `end` in two rounds, without the ceiling. */
  lemma NestedTextExpands()
    ensures ExpandValue("`A", ExtractMacros(Nested), 0) == ("end", false)
  {
    ReferenceInBodyIsKept();
    NestedDefinitionsExpand();
  }
}

=== FILE: table_examples.dfy ===
/** Worked cases of `extract_macros`: two definitions on one line, a
    redefinition, a name with no body, an empty body, and the cleanup of a
    body with a comment and a line break. */
module MacroTableExamples {
  import opened Text
  import opened Cleanup
  import opened MacroTable

  /** Inserting two definitions whose bodies are already clean. */
  lemma InsertTwo(a: Definition, b: Definition)
    requires IsNormalized(a.body) && IsNormalized(b.body)
    ensures Insert(map[], [a, b]) == map[a.name := a.body][b.name := b.body]
  {
    var m1 := map[a.name := a.body];
    var m2 := m1[b.name := b.body];
    assert Normalize(a.body) == a.body;
    assert Normalize(b.body) == b.body;
    assert [a, b] == [a] + [b];
    InsertStep(map[], a, [b]);
    assert [b] == [b] + [];
    InsertStep(m1, b, []);
    assert Insert(m2, []) == m2;
  }

  /** A single non-space character other than `/` is a clean body. */
  lemma OneCharIsNormalized(c: char)
    requires !IsSpace(c) && c != '/'
    ensures IsNormalized([c])
  {
  }

  /** A body with no whitespace and no slash is already in stored shape. */
  lemma NoSpaceIsNormalized(s: string)
    requires forall i :: 0 <= i < |s| ==> !IsSpace(s[i]) && s[i] != '/'
    ensures IsNormalized(s)
  {
  }

  /** Storing twice under one key keeps the second value. */
  lemma Overwrite(k: string, x: string, y: string)
    ensures map[k := x][k := y] == map[k := y]
  {
  }

  const TwoOnLine := "`define A 1" + " `define B 2"

  lemma FirstOfTwo()
    ensures MatchAt(TwoOnLine, 0) == Some(Match(Definition("A", "1"), 11))
  {
    var s := TwoOnLine;
    assert Line("A", "1") == "`define A 1";
    assert StartsAt(s, 0, "`define A 1");
    SkipSpacesOverRun(s, 11, 12);
    assert MarkerAt(s, 12) by {
      assert s[12..19] == Marker;
    }
    DefinitionLineMatches(s, 0, "A", "1");
  }

  lemma SecondOfTwo()
    ensures MatchAt(TwoOnLine, 12) == Some(Match(Definition("B", "2"), 23))
  {
    var s := TwoOnLine;
    assert Line("B", "2") == "`define B 2";
    assert StartsAt(s, 12, "`define B 2") by {
      assert s[12..23] == "`define B 2";
    }
    DefinitionLineMatches(s, 12, "B", "2");
  }

  lemma ScanTwoOnLine()
    ensures Scan(TwoOnLine, 0) == [Definition("A", "1"), Definition("B", "2")]
  {
    var s := TwoOnLine;
    FirstOfTwo();
    SecondOfTwo();
    ScanStep(s, 0);
    ScanStep(s, 11);
    ScanStep(s, 12);
    assert Scan(s, 23) == [];
  }

  /** A body stops before the whitespace that precedes the next marker on
      the same line. */
  lemma TwoOnOneLine()
    ensures ExtractMacros(TwoOnLine) == map["A" := "1", "B" := "2"]
  {
    ScanTwoOnLine();
    var a, b := Definition("A", "1"), Definition("B", "2");
    OneCharIsNormalized('1');
    OneCharIsNormalized('2');
    InsertTwo(a, b);
  }


  const Redefined := "`define FOO 1\n" + "`define FOO 2"

  lemma FirstOfRedefined()
    ensures MatchAt(Redefined, 0) == Some(Match(Definition("FOO", "1"), 13))
  {
    var s := Redefined;
    assert Line("FOO", "1") == "`define FOO 1";
    assert StartsAt(s, 0, "`define FOO 1");
    assert s[13] == '\n';
    DefinitionLineMatches(s, 0, "FOO", "1");
  }

  lemma SecondOfRedefined()
    ensures MatchAt(Redefined, 14) == Some(Match(Definition("FOO", "2"), 27))
  {
    var s := Redefined;
    assert Line("FOO", "2") == "`define FOO 2";
    assert StartsAt(s, 14, "`define FOO 2") by {
      assert s[14..27] == "`define FOO 2";
    }
    DefinitionLineMatches(s, 14, "FOO", "2");
  }

  lemma ScanRedefined()
    ensures Scan(Redefined, 0) == [Definition("FOO", "1"), Definition("FOO", "2")]
  {
    var s := Redefined;
    FirstOfRedefined();
    SecondOfRedefined();
    ScanStep(s, 0);
    ScanStep(s, 13);
    ScanStep(s, 14);
    assert Scan(s, 27) == [];
  }

  /** The later of two definitions of a name wins. */
  lemma RedefinitionWins()
    ensures ExtractMacros(Redefined) == map["FOO" := "2"]
  {
    ScanRedefined();
    var a, b := Definition("FOO", "1"), Definition("FOO", "2");
    OneCharIsNormalized('1');
    OneCharIsNormalized('2');
    InsertTwo(a, b);
    Overwrite("FOO", "1", "2");
  }


  const Nested := "`define A `B" + "\n`define B end"

  /** The reference `` `B `` inside the first body is not a `` `define `` marker. */
  lemma NestedBodyHasNoMarker()
    ensures NoMarkerWithin(Nested, 10, 12)
  {
    var s := Nested;
    assert s[11] == 'B' && s[12] == '\n';
    forall i | 10 <= i < 12 ensures !MarkerAt(s, i) {
      assert s[i..i + |Marker|][1] == s[i + 1] != Marker[1];
    }
  }

  lemma NestedBodiesAreNormalized()
    ensures IsNormalized("`B") && IsNormalized("end")
  {
    NoSpaceIsNormalized("`B");
    NoSpaceIsNormalized("end");
  }

  lemma FirstOfNested()
    ensures MatchAt(Nested, 0) == Some(Match(Definition("A", "`B"), 12))
  {
    var s := Nested;
    assert Line("A", "`B") == "`define A `B";
    assert StartsAt(s, 0, "`define A `B");
    assert s[12] == '\n';
    NestedBodyHasNoMarker();
    assert PlainBody("`B");
    assert BodyStopsAt(s, 12);
    DefinitionLineMatches(s, 0, "A", "`B");
  }

  lemma SecondOfNested()
    ensures MatchAt(Nested, 13) == Some(Match(Definition("B", "end"), 26))
  {
    var s := Nested;
    assert Line("B", "end") == "`define B end";
    assert StartsAt(s, 13, "`define B end") by {
      assert s[13..26] == "`define B end";
    }
    DefinitionLineMatches(s, 13, "B", "end");
  }

  lemma ScanNested()
    ensures Scan(Nested, 0) == [Definition("A", "`B"), Definition("B", "end")]
  {
    var s := Nested;
    FirstOfNested();
    SecondOfNested();
    ScanStep(s, 0);
    ScanStep(s, 12);
    ScanStep(s, 13);
    assert Scan(s, 26) == [];
  }

  /** A body that refers to another macro is stored as written: the table
      keeps references, and expansion resolves them later. */
  lemma ReferenceInBodyIsKept()
    ensures ExtractMacros(Nested) == map["A" := "`B", "B" := "end"]
  {
    ScanNested();
    var a, b := Definition("A", "`B"), Definition("B", "end");
    NestedBodiesAreNormalized();
    InsertTwo(a, b);
  }


  const Continued := "`define A\n" + "  x\n" + "  y"

  /** The greedy `\s+` after the name crosses the line break, so the body
      starts on the next line; `$` then stops it at that line's end. */
  lemma FirstLineOfContinued()
    ensures MatchAt(Continued, 0) == Some(Match(Definition("A", "x"), 13))
  {
    var s := Continued;
    assert |s| == 17 && s[12] == 'x' && s[13] == '\n';
    assert HeaderAt(s, 0, 8, 9) by {
      assert s[0..7] == Marker;
      assert s[7] == ' ' && s[8] == 'A' && s[9] == '\n';
    }
    assert BodyAfter(s, 9, "x", 13) by {
      assert s[12..13] == "x";
      assert s[10] == ' ' && s[11] == ' ';
      assert SkipSpaces(s, 12) == 12;
      assert !MarkerAt(s, 12);
    }
    assert s[8..9] == "A";
    NamedPatternMatch(s, 0, 8, 9, "A", "x", 13);
  }

  lemma ScanContinued()
    ensures Scan(Continued, 0) == [Definition("A", "x")]
  {
    FirstLineOfContinued();
    ScanStep(Continued, 0);
  }

  /** Of an indented multi-line definition only the first body line is
      stored; the lines after it belong to no definition. */
  lemma OnlyFirstBodyLineIsKept()
    ensures ExtractMacros(Continued) == map["A" := "x"]
  {
    ScanContinued();
    var a := Definition("A", "x");
    OneCharIsNormalized('x');
    assert Normalize("x") == "x";
    assert [a] == [a] + [];
    InsertStep(map[], a, []);
  }

  /** `\s+` after the name needs at least one character: a bare trailing
      definition yields no entry. */
  lemma NameWithoutBody()
    ensures ExtractMacros("`define FOO") == map[]
  {
    var s := "`define FOO";
    assert MatchAt(s, 0) == None by {
      SkipSpacesOverRun(s, 7, 8);
      SkipWordOverRun(s, 8, 11);
    }
    forall i | 1 <= i < |s| ensures !MarkerAt(s, i) {
      if i + |Marker| <= |s| {
        assert s[i..i + |Marker|][0] == s[i] != '`';
      }
    }
    ScanStep(s, 0);
  }

  const EmptyThenOne := "`define E " + "`define F 1"

  lemma EmptyOfTwo()
    ensures MatchAt(EmptyThenOne, 0) == Some(Match(Definition("E", ""), 10))
  {
    var s := EmptyThenOne;
    assert Line("E", "") == "`define E ";
    assert StartsAt(s, 0, "`define E ");
    assert MarkerAt(s, 10) by {
      assert s[10..17] == Marker;
    }
    DefinitionLineMatches(s, 0, "E", "");
  }

  lemma OneOfTwo()
    ensures MatchAt(EmptyThenOne, 10) == Some(Match(Definition("F", "1"), 21))
  {
    var s := EmptyThenOne;
    assert Line("F", "1") == "`define F 1";
    assert StartsAt(s, 10, "`define F 1") by {
      assert s[10..21] == "`define F 1";
    }
    DefinitionLineMatches(s, 10, "F", "1");
  }

  lemma ScanEmptyThenOne()
    ensures Scan(EmptyThenOne, 0) == [Definition("E", ""), Definition("F", "1")]
  {
    var s := EmptyThenOne;
    EmptyOfTwo();
    OneOfTwo();
    ScanStep(s, 0);
    ScanStep(s, 10);
    assert Scan(s, 21) == [];
  }

  /** A marker right after the name's whitespace gives an empty body, which
      is stored, not dropped. */
  lemma EmptyBodyIsKept()
    ensures ExtractMacros(EmptyThenOne) == map["E" := "", "F" := "1"]
  {
    ScanEmptyThenOne();
    var a, b := Definition("E", ""), Definition("F", "1");
    OneCharIsNormalized('1');
    assert IsNormalized("");
    InsertTwo(a, b);
  }


  lemma TailHasNoComment()
    ensures NoComment("\n  bar")
  {
    var t := "\n  bar";
    forall i | 0 <= i < |t| ensures !CommentAt(t, i) {
      assert t[i] != '/';
    }
  }

  lemma CommentIsCut()
    ensures StripComments("foo " + "// comment" + "\n  bar") == "foo" + " \n  " + "bar"
  {
    var a, c, t := "foo ", "// comment", "\n  bar";
    assert '/' !in a;
    assert CommentAt(c, 0) && '\n' !in c;
    TailHasNoComment();
    StripCommentsCutsComment(a, c, t);
    assert a + t == "foo" + " \n  " + "bar";
  }

  lemma LineBreakIsCollapsed()
    ensures Collapse("foo" + " \n  " + "bar") == "foo bar"
  {
    var a, w, b := "foo", " \n  ", "bar";
    assert forall i :: 0 <= i < |a| ==> !IsSpace(a[i]);
    assert forall i :: 0 <= i < |w| ==> IsSpace(w[i]);
    assert forall i :: 0 <= i < |b| ==> !IsSpace(b[i]);
    CollapseJoinsWords(a, w, b);
    assert a + " " + b == "foo bar";
  }

  /** The comment is cut and the line break with its indentation becomes
      one space. */
  lemma CommentAndLineBreakAreCleaned()
    ensures Normalize("foo " + "// comment" + "\n  bar") == "foo bar"
  {
    CommentIsCut();
    LineBreakIsCollapsed();
    assert Trimmed("foo bar");
  }
}

=== FILE: text.dfy ===
/** Character classes and scanning primitives shared by the definition
    parser and the expander. The regular-expression classes `\s` and `\w`
    are modelled on the fixed sets of characters listed below; Python's own
    classes also hold the separators \x1c-\x1f and non-ASCII characters. */
module Text {

  /** `\s`: space, tab, newline, carriage return, form feed, vertical tab. */
  predicate IsSpace(c: char) {
    c == ' ' || c == '\t' || c == '\n' || c == '\r' || c == '\U{000C}' || c == '\U{000B}'
  }

  /** `\w`: ASCII letters, digits and the underscore. */
  predicate IsWord(c: char) {
    ('a' <= c <= 'z') || ('A' <= c <= 'Z') || ('0' <= c <= '9') || c == '_'
  }

  /** A macro name, as captured by `(\w+)`. */
  predicate IsName(s: string) {
    |s| > 0 && forall i :: 0 <= i < |s| ==> IsWord(s[i])
  }

  /** `w` occurs in `s` starting at index `i`. */
  predicate StartsAt(s: string, i: nat, w: string) {
    i + |w| <= |s| && s[i..i + |w|] == w
  }

  /** The end of the maximal whitespace run that starts at `i` (a greedy `\s*`). */
  function SkipSpaces(s: string, i: nat): (j: nat)
    requires i <= |s|
    ensures i <= j <= |s|
    ensures forall k :: i <= k < j ==> IsSpace(s[k])
    ensures j == |s| || !IsSpace(s[j])
    decreases |s| - i
  {
    if i < |s| && IsSpace(s[i]) then SkipSpaces(s, i + 1) else i
  }

  /** `SkipSpaces` runs across a whitespace run and stops at the first
      character after it that is not whitespace. */
  lemma {:induction false} SkipSpacesOverRun(s: string, i: nat, j: nat)
    requires i <= j <= |s|
    requires forall k :: i <= k < j ==> IsSpace(s[k])
    requires j == |s| || !IsSpace(s[j])
    ensures SkipSpaces(s, i) == j
    decreases j - i
  {
    if i < j {
      SkipSpacesOverRun(s, i + 1, j);
    }
  }

  /** The end of the maximal word-character run that starts at `i` (a greedy `\w*`). */
  function SkipWord(s: string, i: nat): (j: nat)
    requires i <= |s|
    ensures i <= j <= |s|
    ensures forall k :: i <= k < j ==> IsWord(s[k])
    ensures j == |s| || !IsWord(s[j])
    decreases |s| - i
  {
    if i < |s| && IsWord(s[i]) then SkipWord(s, i + 1) else i
  }

  /** `SkipWord` runs across a word run and stops at the first character
      after it that is not a word character. */
  lemma {:induction false} SkipWordOverRun(s: string, i: nat, j: nat)
    requires i <= j <= |s|
    requires forall k :: i <= k < j ==> IsWord(s[k])
    requires j == |s| || !IsWord(s[j])
    ensures SkipWord(s, i) == j
    decreases j - i
  {
    if i < j {
      SkipWordOverRun(s, i + 1, j);
    }
  }

  /** Concatenation is associative. */
  lemma Associative(a: string, b: string, c: string)
    ensures a + b + c == a + (b + c)
  {
  }

  /** Regrouping a three-part concatenation: `h + (t + x) == (h + t) + x`,
      stated over names for the parts so that callers need not unfold them. */
  lemma Regroup(whole: string, rest: string, front: string, h: string, t: string, x: string)
    requires whole == h + rest && rest == t + x && front == h + t
    ensures whole == front + x
  {
  }
}
